=== FILE: README.md ===
# PiEmuCD controller in Dafny

PiEmuCD turns a Raspberry Pi Zero into one or more virtual USB CD-ROM drives.
The daemon `piemucd.py` drives the Linux mass-storage gadget module
(`g_mass_storage`) and an image-store partition (`/dev/mmcblk0p3`, mounted at
`/mnt/imgstore`). It works in one of two modes:

- **CD-ROM mode**: the store is mounted read-only on the board. The gadget is
  loaded with the images that the descriptor `to-be-mounted.txt` names.
- **Store mode**: the store is unmounted. The whole partition is exported to
  the host as a removable disk.

A short press of the button toggles between the two modes. A three-second
hold shuts the board down. Two LEDs show the activity state and the mode.

This project models the controller's decision logic as pure functions.

- **State.** The daemon's state is a `Daemon` record holding `emu_mode`,
  `store_mounted`, `current_mode` and the two LEDs. At start-up it is CD-ROM,
  not mounted, CD-ROM, and both LEDs `wait`.
- **Effects.** Each effect becomes an entry in a command trace: `rmmod`,
  `modprobe`, `mount`, `sync`, `umount`, `mkdir -p` and `shutdown now`.
- **What the world answers.** Exit codes, `os.path.ismount`, `os.path.isdir`,
  `os.path.isfile` and the descriptor's lines are inputs, gathered in `Env`
  for one switch.
- **Helpers.** `disable_emu`, `enable_cdrom`, `enable_store`, `mount_store`
  and `unmount_store` each return a `Step`: what the helper returned, the
  state after it, and the commands it ran.
- **Switches.** `switch_cdrom`, `switch_store`, `switch_mode` and
  `start_shutdown` compose the helpers with Python's short-circuit
  `r = r and step()`. Each returns a `Transition`, which records whether
  reading the descriptor raised.
- **Descriptor.** `get_images_to_mount` is modelled line by line, following
  Python's `str` semantics:
  - `strip`, `index`, `split(' ')`, `','.join` and POSIX `os.path.join` are
    modelled exactly;
  - the `IndexError` on a blank line and the `ValueError` on an unmatched `"`
    are modelled as errors that abort the reading;
  - the method `ImageArgs.GetImagesToMount` computes the module arguments with
    a loop and is proved equal to the reference definition.

Modules, in dependency order:

- `Maybe`
- `Text`: Python `str` operations
- `Config`: constants and path join
- `Descriptor`: one descriptor line, and the reading of a file
- `ImageArgs`: module arguments
- `DescriptorExample`: two concrete lines
- `Indicator`: LEDs
- `State`
- `Gadget`
- `Storage`
- `Controller`: the switches
- `SwitchRules`: cross-operation properties and the invariant
- `Button`: the GPIO callbacks

### Where the code's behaviour is easy to misread

The model follows the code as written. These are the behaviours a reader
might not expect.

- **Blank line.** A blank line in the descriptor does not skip or fail
  quietly. `mount_item[0]` raises `IndexError` (piemucd.py:230). This aborts
  `switch_cdrom` before it reaches the LED update and before `current_mode`
  is committed (`Descriptor.BlankLineRule`, `SwitchRules.LedDivergesOnRaise`).
- **Descriptor read even after a failed mount.** The descriptor is read even
  when mounting failed (piemucd.py:297). The module is loaded only if
  mounting succeeded and there were images (`SwitchRules.CdromGating`).
- **`switch_cdrom` is not idempotent.** Called in CD-ROM mode, it unloads and
  reloads the module (`SwitchRules.CdromReloads`).
- **LED order in `switch_store`.** `switch_store` sets the *mode* LED to
  `wait` (piemucd.py:317). It never sets the activity LED to `wait`, so that
  LED goes from its previous state straight to `idle` or `error`.
- **`current_mode` always committed.** Both switches commit `current_mode`
  even when a step failed. Only the activity LED reports the failure
  (`SwitchRules.ToggleRule`).
- **The console's `disable` leaves the LED alone.** It only runs
  `disable_emu` (piemucd.py:405-406), so an `idle` activity LED can remain
  lit over an unloaded gadget (`SwitchRules.DisableBreaksConsistent`).

## Model

| member | source | states |
|---|---|---|
| Text.StripLeft | piemucd.py:227 | the result is a suffix of the text; every dropped character is in the strip set and the first kept one is not |
| Text.StripRight | piemucd.py:235 | the result is a prefix of the text; every dropped character is in the strip set and the last kept one is not |
| Text.Strip | piemucd.py:227 | the result is the part of the text left after dropping stripped characters from both ends: a contiguous slice, everything before and after it is in the strip set, and it neither starts nor ends with a stripped character; it is empty exactly when the text consists only of stripped characters |
| Text.IndexFrom | piemucd.py:242-243 | returns the first position at or after `from` holding the character, and no value exactly when there is none (where Python raises `ValueError`) |
| Text.Split | piemucd.py:237 | `split(sep)` has at least one piece and no piece holds the separator |
| Text.JoinSplit | piemucd.py:237 | joining the pieces of a split with the same separator gives the text back |
| Text.SplitJoin | piemucd.py:264-272 | splitting a join of separator-free pieces gives the pieces back |
| Text.SplitLast | piemucd.py:241-246 | the last piece of a split is the text after the last separator |
| Text.SplitMember | piemucd.py:259-262 | `w in s.split(sep)` holds exactly when `w` occurs in `s` bounded by separators or the ends |
| Config.PathJoin | piemucd.py:249 | POSIX join: ends with the name; an absolute name replaces the base; otherwise the base is kept as a prefix |
| Config.InsideStore | piemucd.py:249 | a relative image name resolves to `/mnt/imgstore/<name>`; an absolute one is taken as it is |
| Descriptor.BeforeHash | piemucd.py:232-234 | the text before the first `#`: it holds no `#`, it is a prefix, it is followed by the `#`, and it is everything when there is no `#` |
| Descriptor.Directive | piemucd.py:232-235 | the directive is the text before the first `#` with the spaces at both ends removed: it holds no `#`, has no outer spaces, and is non-empty for a line that does not start with `#` |
| Descriptor.Words | piemucd.py:237 | `split(' ')` of a directive: at least one word, no word holds a space, and the words joined with single spaces give the directive back |
| Descriptor.ParseDirective | piemucd.py:237-262 | a file name that raises gives that error; otherwise the path is the name joined to `/mnt/imgstore`, accepted as an image when it is an existing file and skipped as missing when it is not |
| Descriptor.ParseLine | piemucd.py:226-262 | a line raises `BlankLine` exactly when it strips to nothing and is a comment exactly when it strips to a text starting with `#`; otherwise its directive's file name decides: an error raises, an existing joined path is accepted with that path, a missing one is skipped; accepted exactly when the line names an existing file |
| Descriptor.BlankLineRule | piemucd.py:227-230 | a line raises `BlankLine` exactly when it is made of blanks only |
| Descriptor.CommentRule | piemucd.py:227-231 | a line is skipped as a comment exactly when its first non-blank character is `#` |
| Descriptor.UnquotedNameRule | piemucd.py:241-246 | without a `"` in the last word, the image name is that word: space-free, ending the directive, after a space or at its start |
| Descriptor.QuotedNameRule | piemucd.py:241-244 | with a `"` in the last word, reading raises exactly when the directive holds a single `"`; otherwise the name is the text between the first two quotes |
| Descriptor.FlagRule | piemucd.py:259-262 | each flag of an accepted line is set exactly when its keyword is a whole space-delimited word of the directive |
| Descriptor.Outcomes | piemucd.py:226 | one outcome per line, in file order, each the reading of that line |
| Descriptor.AbortIsFinal | piemucd.py:226-262 | once a line has raised, nothing after it changes the result |
| Descriptor.FirstRaiseWins | piemucd.py:226-262 | reading raises error `e` exactly when the first raising line raises `e` |
| Descriptor.NoRaiseIsOk | piemucd.py:226-262 | reading completes exactly when no line raises |
| Descriptor.InFileOrderRule | piemucd.py:254-262 | the entries are exactly the accepted lines' entries, in file order, with no reordering and no removal of duplicates |
| Descriptor.NoEntriesRule | piemucd.py:264-275 | a reading of the lines that does not raise has no entry exactly when none of the lines names an existing file |
| ImageArgs.Column | piemucd.py:258-262 | one value per entry, in order: the entry's path or its `y`/`n` flag |
| ImageArgs.ColumnAppend | piemucd.py:258-262 | appending an entry appends its value to each parameter list |
| ImageArgs.GetImagesToMount | piemucd.py:212-278 | the loop returns `None` without a descriptor, and otherwise the result of reading its lines |
| ImageArgs.CollectArguments | piemucd.py:224-275 | the loop over the line outcomes, with its five lists, returns the reference result: the error of the first raising line, `None` without entries, or the five joined arguments |
| ImageArgs.NoneRule | piemucd.py:264-278 | on the line outcomes: `None` is returned exactly when there is no descriptor or every outcome is a comment or a missing file |
| ImageArgs.NothingToMount | piemucd.py:212-278 | `None` is returned exactly when there is no descriptor, or no line raises and no line names an existing file |
| ImageArgs.RaisedRule | piemucd.py:226-262 | reading raises `e` exactly when the descriptor exists and its first raising line raises `e` |
| ImageArgs.ShapeRule | piemucd.py:264-272 | a returned list is the serialization of the entries read: non-empty, five arguments `file=`, `removable=`, `cdrom=`, `ro=`, `nofua=` |
| ImageArgs.SerializeShape | piemucd.py:266-272 | each flag argument splits back into its column; so does `file=` when no path holds a comma |
| ImageArgs.ItemsOfArgument | piemucd.py:267-271 | each argument starts with its key, and its value splits at commas back into the column |
| ImageArgs.ZipColumns | piemucd.py:258-262 | pairing the k-th values of the five lists gives back the k-th entry |
| ImageArgs.RoundTrip | piemucd.py:258-272 | decoding the five arguments gives back the entries, when no path holds a comma |
| DescriptorExample.QuotedLineParses | piemucd.py:226-262 | the line `cdrom ro "My Disc.iso"` yields `/mnt/imgstore/My Disc.iso`, with cdrom and ro set and removable and nofua clear |
| DescriptorExample.HalfQuotedRaises | piemucd.py:241-244 | the line `ro "half.iso` raises the unmatched-quote error |
| Indicator.ActLed | piemucd.py:53-59 | the activity LED shows `error`, `wait` or `idle` exactly when that name was given, or when it already showed it and the name is none of the others |
| Indicator.ModeLed | piemucd.py:61-69 | the same for the mode LED with `cdrom`, `store`, `wait`, `update`; an unknown name changes nothing |
| Indicator.LedsIdempotent | piemucd.py:53-69 | setting the same state twice shows what setting it once does |
| Indicator.ActLastWins | piemucd.py:53-59 | a later known state hides whatever was set before |
| Indicator.ModeLastWins | piemucd.py:61-69 | a later known state hides whatever was set before |
| Gadget.StoreArgs | piemucd.py:157 | the store is exported as `file=/dev/mmcblk0p3 removable=y` |
| Gadget.DisableEmu | piemucd.py:116-128 | always succeeds and leaves emulation disabled; runs `rmmod g_mass_storage` exactly when emulation was on |
| Gadget.Enable | piemucd.py:132-164 | nothing but the mode changes; a no-op success when a mode is active; otherwise one `modprobe` that succeeds exactly when it exits 0 and then commits the mode |
| Gadget.EnableCdrom | piemucd.py:132-147 | nothing but the mode changes; a successful no-op while a mode is active; from disabled: runs `modprobe g_mass_storage` with the image arguments and succeeds, entering CD-ROM mode, exactly when it exits 0 |
| Gadget.EnableStore | piemucd.py:151-164 | nothing but the mode changes; a successful no-op while a mode is active; from disabled: runs `modprobe g_mass_storage file=/dev/mmcblk0p3 removable=y` and succeeds, entering store mode, exactly when it exits 0 |
| Gadget.DisableIdempotent | piemucd.py:116-128 | a second disable runs nothing and changes nothing |
| Gadget.DisableIgnoresExit | piemucd.py:122-128 | the exit code of `rmmod` makes no difference |
| Gadget.EnableNeedsDisable | piemucd.py:135-137 | while a mode is active, enabling either mode is a successful no-op |
| Gadget.DisableThenEnable | piemucd.py:116-147 | after a disable, enabling runs `modprobe` once and the mode follows its exit code |
| Storage.MountArgv | piemucd.py:177-180 | exactly `mount /dev/mmcblk0p3 /mnt/imgstore` when writable and `mount -o ro /dev/mmcblk0p3 /mnt/imgstore` when read-only |
| Storage.MountStore | piemucd.py:168-188 | only the flag changes, and it equals the result; already mounted (flag or observed): success and no command; otherwise the trace is exactly `mkdir` when the directory is missing, then `mount`, and it succeeds exactly on exit 0 |
| Storage.UnmountStore | piemucd.py:192-207 | only the flag changes, and it is the negation of the result; unless both flag and observation say mounted: success and no command; otherwise `sync`, `umount /dev/mmcblk0p3`, successful exactly on exit 0 |
| Storage.MountIdempotent | piemucd.py:168-188 | after a successful mount, mounting again runs nothing and changes nothing |
| Storage.UnmountIdempotent | piemucd.py:192-207 | after a successful unmount, unmounting again runs nothing and changes nothing |
| Storage.ObservationConsultedOnlyWhenNeeded | piemucd.py:171-195 | `os.path.ismount` matters to mount only when the flag is clear, and to unmount only when it is set |
| Storage.MountThenUnmount | piemucd.py:168-207 | a successful mount then unmount restores the state it started from |
| Controller.SwitchCdrom | piemucd.py:282-309 | the mode LED shows CD-ROM; without a raise CD-ROM mode is committed; when reading raises, the committed mode is unchanged and the activity LED stays `wait` |
| Controller.SwitchStore | piemucd.py:313-333 | never raises; commits store mode; the mode LED ends `store`; the activity LED ends `idle` or `error`, never `wait` |
| Controller.SwitchMode | piemucd.py:337-344 | from CD-ROM mode it switches to the store; from disabled or store mode it switches to CD-ROM |
| Controller.StartShutdown | piemucd.py:348-354 | emulation ends disabled, both LEDs `wait`, the committed mode unchanged, and the last command is `shutdown now` |
| SwitchRules.CdromGating | piemucd.py:282-309 | raises exactly when reading the descriptor raises, with the same error (the blank-line `IndexError` or the unmatched-quote `ValueError`), and then loads nothing; otherwise loads the module exactly when the store got mounted and there are images; the activity LED ends `idle` exactly when, in addition, `modprobe` exited 0, and `error` otherwise |
| SwitchRules.StoreGating | piemucd.py:313-333 | loads the module exactly when unmounting succeeded; the activity LED ends `idle` exactly when `modprobe` also exited 0, and `error` otherwise |
| SwitchRules.CdromTrace | piemucd.py:282-309 | the exact commands: `rmmod` if emulation was on; unless the store was known or seen mounted, `mkdir` when the mount point is missing and then the read-only `mount -o ro`; `modprobe` with the images only if the store got mounted and reading returned images. The store ends mounted exactly when mounting succeeded; the gadget ends in CD-ROM mode exactly when `modprobe` ran and exited 0, and disabled otherwise |
| SwitchRules.StoreTrace | piemucd.py:313-333 | the exact commands: `rmmod` if emulation was on; `sync` and `umount` if the store was known and seen mounted; `modprobe` exporting the partition only if unmounting succeeded, so never before it. The store stays mounted exactly when unmounting failed; the gadget ends in store mode exactly when `modprobe` ran and exited 0, and disabled otherwise |
| SwitchRules.FailureLeavesGadgetUnloaded | piemucd.py:282-333 | a switch that reports `error` without raising still commits its mode while the gadget is left disabled |
| SwitchRules.ToggleRule | piemucd.py:337-344 | a toggle that does not raise commits the other mode |
| SwitchRules.CdromReloads | piemucd.py:282-309 | in CD-ROM mode with the store mounted, switching to CD-ROM runs exactly `rmmod` and then `modprobe` with the images |
| SwitchRules.LedDivergesOnRaise | piemucd.py:285-297 | from store mode, a descriptor that raises leaves the mode LED on CD-ROM while store mode stays committed |
| SwitchRules.ShutdownOrder | piemucd.py:348-354 | the shutdown trace is `rmmod` if emulation was on, then `sync` and `umount` if the store was known and seen mounted, then `shutdown now` |
| SwitchRules.SwitchesEstablishConsistent | piemucd.py:282-354 | after any switch or shutdown, an `idle` activity LED means the gadget and the store match the committed mode |
| SwitchRules.HandleKeepsConsistent | piemucd.py:337-354 | a switch or shutdown request establishes that invariant; the console's `disable` (piemucd.py:405-406) only unloads the gadget and leaves the activity LED, so its result is consistent exactly when the LED was not `idle`; every request keeps a committed mode that is not disabled and leaves a loaded gadget matching it |
| SwitchRules.DisableBreaksConsistent | piemucd.py:405-406 | after a switch to CD-ROM that reported `idle`, the console's `disable` leaves `idle` showing with the gadget unloaded, so the LED invariant does not survive the console |
| SwitchRules.ServeKeepsConsistent | piemucd.py:282-354 | any sequence of requests, served past requests that raise, keeps a committed mode that is not disabled and, once a request was served, a loaded gadget that matches it; the LED invariant holds after every request but `disable`, and throughout a run without `disable` from a consistent start |
| SwitchRules.InitialConsistent | piemucd.py:19-22 | the start-up state satisfies the invariant and commits CD-ROM mode |
| Button.Requested | piemucd.py:30-48 | one request per gesture: a tap requests a toggle and a long press requests shutdown |
| Button.LongPressAlsoToggles | piemucd.py:30-48 | as written, a long press requests shutdown and then a toggle; with the shared flag, only shutdown |
| Button.AsWrittenCounts | piemucd.py:30-48 | as written, the number of toggles equals the number of releases, and the number of shutdowns equals the number of holds |
| Button.IntendedGestures | piemucd.py:30-48 | with the flag shared, each tap toggles once and each long press only shuts down |

## Left out

- `update_from_store` (piemucd.py:81-112) is treated as a no-op: every switch lemma, `SwitchRules.CdromTrace` included, describes runs in which `/mnt/imgstore/update-piemucd.py` is not among the environment's files. When the store holds an update, the program remounts it read-write, replaces the running script and restarts it, which ends the model's run.
- The console's `exit` (piemucd.py:399-402) unloads the gadget and ends the program; it is not a request of the model.
- Blink timings of the LEDs are not modelled; each LED is reduced to the last state name it accepted.
- The interactive console loop, the help and version texts, and every `print` are not modelled.
- GPIO wiring and `gpiozero`'s threads are not modelled. Button callbacks that run at the same time as a console command are not modelled either.
- Commands are never executed. Each becomes a trace entry, and its exit code is an input.
- Exceptions raised by `subprocess.run` itself (a missing program) or by `os.makedirs` are not modelled.
- The descriptor is given as its already-decoded lines. The file's existence and `open`/`readlines` failures are not modelled beyond the `isfile` check.
- `os.path.join` is modelled for the two components the daemon passes.
- `sleep` calls and the `sudo` relaunch are not modelled.
- ImageArgs.RoundTrip: stated only for image paths without a comma. A comma in a path cannot be told apart from the separator that `','.join` inserts, so the `file=` argument is ambiguous for such paths.

## Findings

| source | as written | input that shows it | evidently intended | confidence | as-written member | corrected member |
|---|---|---|---|---|---|---|
| piemucd.py:30-48 | `btn_pressed` and `btn_held` assign a local `btn_hold` (there is no `global`), so the module-level flag stays `False` and `btn_released` always calls `switch_mode` | press the button, hold it until the hold callback fires, release: shutdown starts, then the mode toggles | a release that ends a hold does not toggle the mode | high, not executed | Button.LongPressAlsoToggles | Button.IntendedGestures |

=== FILE: button.dfy ===
/** The push button: a short press toggles the mode, a hold of three seconds
    shuts the board down. The callbacks share a module-level `btn_hold` flag
    (initially false) that is meant to suppress the toggle on the release
    that ends a hold. As written, `btn_pressed` and `btn_held` assign a local
    `btn_hold` (there is no `global` statement), so the shared flag stays
    false and every release toggles. */
module Button {
  import opened SwitchRules

  datatype Event = Pressed | Held | Released

  /** What the user does: a short press, or a press held until the hold
      callback fires. */
  datatype Gesture = Tap | LongPress

  function GestureEvents(g: Gesture): seq<Event> {
    match g
    case Tap => [Pressed, Released]
    case LongPress => [Pressed, Held, Released]
  }

  /** The callbacks' events for a sequence of gestures. */
  function Events(gs: seq<Gesture>): seq<Event>
    decreases |gs|
  {
    if |gs| == 0 then [] else GestureEvents(gs[0]) + Events(gs[1..])
  }

  /** The callbacks as written, given the shared flag: pressing and holding
      leave it untouched, holding requests shutdown, releasing toggles when
      the flag is clear. */
  function ReactAsWritten(hold: bool, events: seq<Event>): (reqs: seq<Request>)
    decreases |events|
  {
    if |events| == 0 then []
    else
      match events[0]
      case Pressed => ReactAsWritten(hold, events[1..])
      case Held => [PowerOff] + ReactAsWritten(hold, events[1..])
      case Released => (if hold then [] else [Toggle]) + ReactAsWritten(hold, events[1..])
  }

  /** The callbacks with `global btn_hold`: pressing clears the flag, holding
      sets it and requests shutdown, releasing toggles when it is clear. */
  function ReactIntended(hold: bool, events: seq<Event>): (reqs: seq<Request>)
    decreases |events|
  {
    if |events| == 0 then []
    else
      match events[0]
      case Pressed => ReactIntended(false, events[1..])
      case Held => [PowerOff] + ReactIntended(true, events[1..])
      case Released => (if hold then [] else [Toggle]) + ReactIntended(hold, events[1..])
  }

  /** What each gesture should request. */
  function Requested(gs: seq<Gesture>): (reqs: seq<Request>)
    ensures |reqs| == |gs|
    ensures forall k :: 0 <= k < |gs| ==> reqs[k] == (if gs[k] == Tap then Toggle else PowerOff)
    decreases |gs|
  {
    if |gs| == 0 then []
    else (if gs[0] == Tap then [Toggle] else [PowerOff]) + Requested(gs[1..])
  }

  /** As written, a long press requests shutdown and then, on release, a
      mode toggle. */
  lemma LongPressAlsoToggles()
    ensures ReactAsWritten(false, Events([LongPress])) == [PowerOff, Toggle]
    ensures ReactIntended(false, Events([LongPress])) == [PowerOff]
  {
    var ev := Events([LongPress]);
    assert ev == [Pressed, Held, Released];
    assert ev[1..] == [Held, Released] && ev[2..] == [Released] && ev[3..] == [];
  }

  /** As written, every release toggles and every hold shuts down, whatever
      was pressed before: the flag never leaves its initial value. */
  lemma {:induction false} AsWrittenCounts(events: seq<Event>)
    ensures multiset(ReactAsWritten(false, events))[Toggle] == multiset(events)[Released]
    ensures multiset(ReactAsWritten(false, events))[PowerOff] == multiset(events)[Held]
    decreases |events|
  {
    if |events| > 0 {
      var tail := events[1..];
      var r := ReactAsWritten(false, tail);
      AsWrittenCounts(tail);
      assert multiset(events) == multiset([events[0]]) + multiset(tail) by {
        assert events == [events[0]] + tail;
      }
      match events[0]
      case Pressed =>
        assert ReactAsWritten(false, events) == r;
      case Held =>
        assert ReactAsWritten(false, events) == [PowerOff] + r;
        assert multiset([PowerOff] + r) == multiset([PowerOff]) + multiset(r);
      case Released =>
        assert ReactAsWritten(false, events) == [Toggle] + r;
        assert multiset([Toggle] + r) == multiset([Toggle]) + multiset(r);
    }
  }

  /** With the flag shared, each tap toggles once and each long press only
      shuts down, whatever the flag held before. */
  lemma {:induction false} IntendedGestures(hold: bool, gs: seq<Gesture>)
    ensures ReactIntended(hold, Events(gs)) == Requested(gs)
    decreases |gs|
  {
    if |gs| > 0 {
      var rest := Events(gs[1..]);
      IntendedGestures(false, gs[1..]);
      IntendedGestures(true, gs[1..]);
      var ev := GestureEvents(gs[0]) + rest;
      assert Events(gs) == ev;
      if gs[0] == Tap {
        assert ev[1..] == [Released] + rest && ev[1..][1..] == rest;
        assert ReactIntended(hold, ev) == ReactIntended(false, ev[1..]);
        assert ReactIntended(false, ev[1..]) == [Toggle] + ReactIntended(false, rest);
      } else {
        assert ev[1..] == [Held, Released] + rest;
        assert ev[1..][1..] == [Released] + rest && ev[1..][1..][1..] == rest;
        assert ReactIntended(hold, ev) == ReactIntended(false, ev[1..]);
        assert ReactIntended(false, ev[1..]) == [PowerOff] + ReactIntended(true, ev[1..][1..]);
        assert ReactIntended(true, ev[1..][1..]) == ReactIntended(true, rest);
      }
    }
  }
}

=== FILE: config.dfy ===
/** Fixed names the daemon is configured with, and the path join it uses. */
module Config {

  /** The partition that holds the image store. */
  const StoreDev: string := "/dev/mmcblk0p3"

  /** Where the image store is mounted on the board. */
  const StoreMnt: string := "/mnt/imgstore"

  /** The descriptor file, relative to the image store. */
  const DescriptorName: string := "to-be-mounted.txt"

  /** The kernel module that provides the mass-storage gadget. */
  const GadgetModule: string := "g_mass_storage"

  /** POSIX `os.path.join(base, name)` for two components: an absolute
      `name` replaces `base`; otherwise one `/` separates them. */
  function PathJoin(base: string, name: string): (path: string)
    ensures |name| <= |path| && path[|path| - |name|..] == name
    ensures |name| > 0 && name[0] == '/' ==> path == name
    ensures !(|name| > 0 && name[0] == '/') ==> |base| <= |path| && path[..|base|] == base
  {
    if |name| > 0 && name[0] == '/' then name
    else if |base| == 0 || base[|base| - 1] == '/' then base + name
    else base + "/" + name
  }

  /** The path the daemon reads the descriptor from. */
  function DescriptorPath(): string {
    PathJoin(StoreMnt, DescriptorName)
  }

  /** A relative image name resolves inside the image store, behind its
      directory separator; an absolute one is taken as it is. */
  lemma InsideStore(name: string)
    ensures !(|name| > 0 && name[0] == '/') ==> PathJoin(StoreMnt, name) == StoreMnt + "/" + name
    ensures |name| > 0 && name[0] == '/' ==> PathJoin(StoreMnt, name) == name
  {
    assert StoreMnt[|StoreMnt| - 1] == 'e';
  }
}

=== FILE: controller.dfy ===
/** The mode switches that drive the board: `switch_cdrom`, `switch_store`,
    `switch_mode` and `start_shutdown`. Each composes the helpers with
    `r = r and step()`, so a failed step skips the later gated ones. */
module Controller {
  import opened Maybe
  import opened Config
  import opened Descriptor
  import opened ImageArgs
  import opened Indicator
  import opened State
  import opened Gadget
  import opened Storage

  /** What the world answers during one switch: the exit code of each
      command (each runs at most once per switch), what `os.path.ismount`
      and `os.path.isdir` report for the mount point, the existing regular
      files and the lines of the descriptor. The model describes runs in
      which the store holds no update script, that is, with
      `PathJoin(StoreMnt, "update-piemucd.py") !in files`; with one, the
      program would remount the store read-write, run it and exit. */
  datatype Env = Env(
    rmmodExit: int,
    mountExit: int,
    umountExit: int,
    modprobeExit: int,
    storeIsMount: bool,
    mountDirExists: bool,
    files: set<string>,
    descriptor: seq<string>)

  /** The state after a switch, the commands it ran, and the error if reading
      the descriptor raised (the switch then stops where it was). */
  datatype Transition = Transition(state: Daemon, trace: seq<Command>, raised: Option<LineError>)

  /** Sets the activity LED from the overall result. */
  function Report(s: Daemon, r: bool): Daemon {
    s.(actLed := ActLed(s.actLed, if r then "idle" else "error"))
  }

  /** `switch_cdrom()`. The module is unloaded and the store mounted
      read-only; the descriptor is read even if mounting failed; the module
      is loaded with the image arguments only if mounting succeeded and
      there were arguments. */
  function SwitchCdrom(s: Daemon, env: Env): (t: Transition)
    ensures t.raised.None? ==> t.state.currentMode == CdRom
    ensures t.raised.Some? ==> t.state.currentMode == s.currentMode && t.state.actLed == ActWait
    ensures t.state.modeLed == ModeCdrom
  {
    var s0 := s.(modeLed := ModeLed(s.modeLed, "cdrom"));
    var s1 := s0.(actLed := ActLed(s0.actLed, "wait"));
    var disable := DisableEmu(s1, env.rmmodExit);
    var mount :=
      if disable.ok then MountStore(disable.state, false, env.storeIsMount, env.mountDirExists, env.mountExit)
      else Step(false, disable.state, []);
    var trace := disable.trace + mount.trace;
    match ImagesToMount(env.files, env.descriptor)
    case Raised(e) => Transition(mount.state, trace, Some(e))
    case Returned(args) =>
      var r := mount.ok && args.Some?;
      var enable :=
        if args.Some? && r then EnableCdrom(mount.state, args.value, env.modprobeExit)
        else Step(r, mount.state, []);
      Transition(Report(enable.state, enable.ok).(currentMode := CdRom), trace + enable.trace, None)
  }

  /** `switch_store()`. The module is unloaded, the store unmounted, and the
      module loaded on the whole partition only if unmounting succeeded. The
      mode LED shows `store`, then `wait`, then `store` again; the activity
      LED is not set to `wait` first. */
  function SwitchStore(s: Daemon, env: Env): (t: Transition)
    ensures t.raised.None?
    ensures t.state.currentMode == Store
    ensures t.state.modeLed == ModeStore
    ensures t.state.actLed != ActWait
  {
    var s0 := s.(modeLed := ModeLed(ModeLed(s.modeLed, "store"), "wait"));
    var disable := DisableEmu(s0, env.rmmodExit);
    var unmount :=
      if disable.ok then UnmountStore(disable.state, env.storeIsMount, env.umountExit)
      else Step(false, disable.state, []);
    var enable :=
      if unmount.ok then EnableStore(unmount.state, env.modprobeExit)
      else Step(false, unmount.state, []);
    var done := Report(enable.state, enable.ok);
    var s2 := done.(modeLed := ModeLed(done.modeLed, "store"), currentMode := Store);
    Transition(s2, disable.trace + unmount.trace + enable.trace, None)
  }

  /** `switch_mode()`: from CD-ROM mode to the store, from anything else to
      CD-ROM mode. */
  function SwitchMode(s: Daemon, env: Env): (t: Transition)
    ensures s.currentMode == CdRom ==> t == SwitchStore(s, env)
    ensures s.currentMode != CdRom ==> t == SwitchCdrom(s, env)
  {
    match s.currentMode
    case Disabled => SwitchCdrom(s, env)
    case Store => SwitchCdrom(s, env)
    case CdRom => SwitchStore(s, env)
  }

  const Shutdown: Command := Run(["shutdown", "now"])

  /** `start_shutdown()`: both LEDs wait, the module is unloaded, the store
      unmounted, and the board shut down, whatever the helpers returned. */
  function StartShutdown(s: Daemon, env: Env): (t: Transition)
    ensures t.raised.None?
    ensures t.state.emuMode == Disabled
    ensures t.state.actLed == ActWait && t.state.modeLed == ModeWait
    ensures t.state.currentMode == s.currentMode
    ensures |t.trace| > 0 && t.trace[|t.trace| - 1] == Run(["shutdown", "now"])
  {
    var s0 := s.(actLed := ActLed(s.actLed, "wait"));
    var s1 := s0.(modeLed := ModeLed(s0.modeLed, "wait"));
    var disable := DisableEmu(s1, env.rmmodExit);
    var unmount := UnmountStore(disable.state, env.storeIsMount, env.umountExit);
    Transition(unmount.state, disable.trace + unmount.trace + [Shutdown], None)
  }
}

=== FILE: descriptor.dfy ===
/** The line-by-line reading of the image-list file `to-be-mounted.txt`
    (`get_images_to_mount` up to the point where the five argument lists are
    complete). Each line is `<flags...> <file name or "quoted file name">`,
    with `#` starting a comment. */
module Descriptor {
  import opened Maybe
  import opened Text
  import opened Config

  /** The characters `strip(" \n\r\t")` removes from both ends of a line. */
  const LineBlanks: set<char> := {' ', '\n', '\r', '\t'}

  /** One accepted line: the joined image path and its four flags. */
  datatype Entry = Entry(path: string, removable: bool, cdrom: bool, ro: bool, nofua: bool)

  /** The two ways reading a line raises: `mount_item[0]` on an empty line
      (`IndexError`) and `index('"')` without a matching quote (`ValueError`). */
  datatype LineError = BlankLine | UnmatchedQuote

  /** What one line contributes. */
  datatype LineOutcome =
    | Comment
    | Missing(path: string)
    | Image(entry: Entry)
    | Raises(error: LineError)

  /** `k` is the position of the first character of `line` that is not a blank. */
  ghost predicate FirstVisible(line: string, k: int) {
    && 0 <= k < |line|
    && line[k] !in LineBlanks
    && forall j :: 0 <= j < k ==> line[j] in LineBlanks
  }

  /** The line with its outer blanks removed. */
  function Visible(line: string): string {
    Strip(line, LineBlanks)
  }

  /** The text before the first `#` (the whole text when there is none). */
  function BeforeHash(t: string): (h: string)
    ensures '#' !in h
    ensures h <= t
    ensures '#' !in t ==> h == t
    ensures '#' in t ==> |h| < |t| && t[|h|] == '#'
  {
    match IndexFrom(t, '#', 0)
    case None => t
    case Some(k) => t[..k]
  }

  /** The directive of a visible line: the text before its first `#`, outer
      spaces removed. It holds no `#`, does not start or end with a space,
      and is never empty for a line that does not start with `#`. */
  function Directive(t: string): (d: string)
    ensures exists a :: Trimmed(BeforeHash(t), {' '}, d, a)
    ensures '#' !in d
    ensures |d| > 0 ==> d[0] != ' ' && d[|d| - 1] != ' '
    ensures forall c :: c in d ==> c in t
    ensures |t| > 0 && t[0] != '#' && t[0] != ' ' ==> |d| > 0
  {
    var h := BeforeHash(t);
    assert |t| > 0 && t[0] != '#' ==> |h| > 0 && h[0] == t[0];
    Strip(h, {' '})
  }

  /** The space-separated words of a directive (`split(' ')`): joined with
      single spaces they give the directive back, and none holds a space. */
  function Words(d: string): (words: seq<string>)
    ensures |words| >= 1
    ensures Join(words, ' ') == d
    ensures forall k :: 0 <= k < |words| ==> ' ' !in words[k]
  {
    JoinSplit(d, ' ');
    Split(d, ' ')
  }

  /** The image name of a directive: its last word, or, when that word holds
      a `"`, the text between the directive's first `"` and the next one. */
  function FileName(d: string): Result<string, LineError> {
    var words := Words(d);
    var last := words[|words| - 1];
    if '"' !in last then Ok(last)
    else
      match IndexFrom(d, '"', 0)
      case None => Err(UnmatchedQuote)
      case Some(qs) =>
        match IndexFrom(d, '"', qs + 1)
        case None => Err(UnmatchedQuote)
        case Some(qe) => Ok(d[qs + 1..qe])
  }

  /** What a directive contributes: the image it names, if that is an
      existing file, with the flags among its words. */
  function ParseDirective(d: string, files: set<string>): (o: LineOutcome)
    ensures FileName(d).Err? ==> o == Raises(FileName(d).error)
    ensures FileName(d).Ok? ==>
      var p := PathJoin(StoreMnt, FileName(d).value);
      && (p in files ==> o.Image? && o.entry.path == p)
      && (p !in files ==> o == Missing(p))
    ensures o.Image? ==> o.entry.path in files
    ensures o.Missing? ==> o.path !in files
    ensures o.Raises? ==> o.error == UnmatchedQuote
    ensures !o.Comment?
  {
    match FileName(d)
    case Err(e) => Raises(e)
    case Ok(name) =>
      var path := PathJoin(StoreMnt, name);
      if path !in files then Missing(path)
      else
        var words := Words(d);
        Image(Entry(path, "removable" in words, "cdrom" in words, "ro" in words, "nofua" in words))
  }

  /** The line is neither blank nor a comment: it holds a directive. */
  ghost predicate HasDirective(line: string) {
    |Visible(line)| > 0 && Visible(line)[0] != '#'
  }

  /** The line names, without raising, an image path that is an existing file. */
  ghost predicate NamesExistingFile(line: string, files: set<string>) {
    && HasDirective(line)
    && FileName(DirectiveOf(line)).Ok?
    && PathJoin(StoreMnt, FileName(DirectiveOf(line)).value) in files
  }

  /** Reading the line raises: it is blank, or its file name has no closing quote. */
  ghost predicate RaisingLine(line: string) {
    |Visible(line)| == 0 || (HasDirective(line) && FileName(DirectiveOf(line)).Err?)
  }

  /** What one line of the descriptor contributes, given the set of paths
      that are existing regular files: a blank line raises, a `#` line is a
      comment, and otherwise the path its directive names is accepted exactly
      when it is an existing file. */
  function ParseLine(line: string, files: set<string>): (o: LineOutcome)
    ensures |Visible(line)| == 0 <==> o == Raises(BlankLine)
    ensures |Visible(line)| > 0 && Visible(line)[0] == '#' <==> o.Comment?
    ensures HasDirective(line) ==>
      var d := DirectiveOf(line);
      && (FileName(d).Err? ==> o == Raises(FileName(d).error))
      && (FileName(d).Ok? ==>
            var p := PathJoin(StoreMnt, FileName(d).value);
            && (p in files ==> o.Image? && o.entry.path == p)
            && (p !in files ==> o == Missing(p)))
    ensures o.Image? <==> NamesExistingFile(line, files)
    ensures o.Raises? <==> RaisingLine(line)
    ensures o.Image? ==> o.entry.path in files
    ensures o.Missing? ==> o.path !in files
  {
    var t := Visible(line);
    if |t| == 0 then Raises(BlankLine)
    else if t[0] == '#' then Comment
    else ParseDirective(Directive(t), files)
  }

  /** A line raises `BlankLine` exactly when it consists of blanks only. */
  lemma BlankLineRule(line: string, files: set<string>)
    ensures ParseLine(line, files) == Raises(BlankLine) <==>
              forall k :: 0 <= k < |line| ==> line[k] in LineBlanks
  {
    var t := Visible(line);
    if |t| > 0 && t[0] != '#' {
      var d := Directive(t);
      assert t[0] !in LineBlanks;
      assert |d| > 0;
    }
  }

  /** A line is a comment exactly when its first non-blank character is `#`. */
  lemma {:induction false} CommentRule(line: string, files: set<string>)
    ensures ParseLine(line, files).Comment? <==> exists k :: FirstVisible(line, k) && line[k] == '#'
  {
    var l := StripLeft(line, LineBlanks);
    var t := StripRight(l, LineBlanks);
    assert Visible(line) == t;
    if ParseLine(line, files).Comment? {
      var k := |line| - |l|;
      assert t[0] == l[0] == line[k];
      assert FirstVisible(line, k);
    }
    if k :| FirstVisible(line, k) && line[k] == '#' {
      StripLeftAt(line, LineBlanks, k);
      assert l[0] == '#';
      assert |t| > 0;
      assert t[0] == '#';
    }
  }

  /** `d` holds exactly one double quote. */
  lemma OneQuote(d: string, qs: nat)
    requires qs < |d| && d[qs] == '"'
    requires forall k :: 0 <= k < qs ==> d[k] != '"'
    requires forall k :: qs + 1 <= k < |d| ==> d[k] != '"'
    ensures multiset(d)['"'] == 1
  {
    assert d == d[..qs] + [d[qs]] + d[qs + 1..];
    assert '"' !in d[..qs];
    assert '"' !in d[qs + 1..];
  }

  /** `d` holds at least two double quotes. */
  lemma TwoQuotes(d: string, qs: nat, qe: nat)
    requires qs < qe < |d| && d[qs] == '"' && d[qe] == '"'
    ensures multiset(d)['"'] >= 2
  {
    assert d == d[..qs] + [d[qs]] + d[qs + 1..qe] + [d[qe]] + d[qe + 1..];
  }

  /** The name `"..."` sits at `q`: a `"` with none before it, the name
      (without quotes), then a closing `"`. */
  ghost predicate QuotedAt(d: string, q: int, name: string) {
    && 0 <= q && q + |name| + 1 < |d|
    && d[q] == '"'
    && '"' !in d[..q]
    && d[q + 1..q + 1 + |name|] == name
    && '"' !in name
    && d[q + 1 + |name|] == '"'
  }

  /** Without a `"` in the last word, the image name is the last word: a
      suffix of the directive with no space, preceded by a space unless it is
      the whole directive. */
  lemma UnquotedNameRule(d: string)
    requires '"' !in Words(d)[|Words(d)| - 1]
    ensures var name := Words(d)[|Words(d)| - 1];
      && FileName(d) == Ok(name)
      && ' ' !in name
      && |name| <= |d| && name == d[|d| - |name|..]
      && (|name| < |d| ==> d[|d| - |name| - 1] == ' ')
  {
    var last := SplitLast(d, ' ');
  }

  /** With a `"` in the last word, reading the name raises exactly when the
      directive holds a single `"`; otherwise the name is the text between the
      directive's first `"` and the next one. */
  lemma QuotedNameRule(d: string)
    requires '"' in Words(d)[|Words(d)| - 1]
    ensures FileName(d) == Err(UnmatchedQuote) <==> multiset(d)['"'] == 1
    ensures FileName(d).Ok? ==> exists q :: QuotedAt(d, q, FileName(d).value)
  {
    var qs := FirstQuote(d);
    match IndexFrom(d, '"', qs + 1)
    case None =>
      OneQuote(d, qs);
    case Some(qe) =>
      TwoQuotes(d, qs, qe);
      QuotedSpan(d, qs, qe);
  }

  /** A `"` in the last word is a `"` in the directive. */
  lemma FirstQuote(d: string) returns (qs: nat)
    requires '"' in Words(d)[|Words(d)| - 1]
    ensures IndexFrom(d, '"', 0) == Some(qs)
  {
    var last := SplitLast(d, ' ');
    var p :| 0 <= p < |last| && last[p] == '"';
    assert d[|d| - |last| + p] == '"';
    qs := IndexFrom(d, '"', 0).value;
  }

  /** The text between the first two quotes is a quoted name. */
  lemma QuotedSpan(d: string, qs: nat, qe: nat)
    requires IndexFrom(d, '"', 0) == Some(qs) && IndexFrom(d, '"', qs + 1) == Some(qe)
    ensures QuotedAt(d, qs, d[qs + 1..qe])
  {
    assert forall k :: 0 <= k < qs ==> d[..qs][k] != '"';
  }

  /** The directive of a line that neither is blank nor starts with `#`. */
  function DirectiveOf(line: string): string {
    Directive(Visible(line))
  }

  /** Each flag of an accepted line is set exactly when its keyword, spelled
      exactly so, is a whole space-separated word of the directive (the words
      of a quoted name count too). */
  lemma FlagRule(line: string, files: set<string>)
    requires ParseLine(line, files).Image?
    ensures var e := ParseLine(line, files).entry; var d := DirectiveOf(line);
      && (e.removable <==> exists i :: Delimited(d, ' ', "removable", i))
      && (e.cdrom <==> exists i :: Delimited(d, ' ', "cdrom", i))
      && (e.ro <==> exists i :: Delimited(d, ' ', "ro", i))
      && (e.nofua <==> exists i :: Delimited(d, ' ', "nofua", i))
  {
    var d := DirectiveOf(line);
    SplitMember(d, ' ', "removable");
    SplitMember(d, ' ', "cdrom");
    SplitMember(d, ' ', "ro");
    SplitMember(d, ' ', "nofua");
  }

  /** The outcome of every line, in file order. */
  function Outcomes(lines: seq<string>, files: set<string>): (outs: seq<LineOutcome>)
    ensures |outs| == |lines|
    ensures forall j :: 0 <= j < |lines| ==> outs[j] == ParseLine(lines[j], files)
  {
    seq(|lines|, j requires 0 <= j < |lines| => ParseLine(lines[j], files))
  }

  /** The entries the outcomes accept, in order; the first outcome that
      raises aborts the whole reading. */
  function Collect(outs: seq<LineOutcome>): Result<seq<Entry>, LineError>
    decreases |outs|
  {
    if |outs| == 0 then Ok([])
    else
      match Collect(outs[..|outs| - 1])
      case Err(e) => Err(e)
      case Ok(es) =>
        match outs[|outs| - 1]
        case Raises(e) => Err(e)
        case Image(entry) => Ok(es + [entry])
        case _ => Ok(es)
  }

  /** Reading one more line: what `Collect` does with the next outcome. */
  lemma CollectStep(outs: seq<LineOutcome>, i: nat, es: seq<Entry>)
    requires i < |outs| && Collect(outs[..i]) == Ok(es)
    ensures outs[i].Raises? ==> Collect(outs[..i + 1]) == Err(outs[i].error)
    ensures outs[i].Image? ==> Collect(outs[..i + 1]) == Ok(es + [outs[i].entry])
    ensures outs[i].Comment? || outs[i].Missing? ==> Collect(outs[..i + 1]) == Ok(es)
  {
    assert outs[..i + 1][..i] == outs[..i];
  }

  /** Once a prefix of the file has raised, the rest of the file is not read. */
  lemma {:induction false} AbortIsFinal(outs: seq<LineOutcome>, n: nat)
    requires n <= |outs|
    requires Collect(outs[..n]).Err?
    ensures Collect(outs) == Collect(outs[..n])
    decreases |outs|
  {
    if n < |outs| {
      var init := outs[..|outs| - 1];
      assert init[..n] == outs[..n];
      AbortIsFinal(init, n);
    } else {
      assert outs[..n] == outs;
    }
  }

  /** `j` is the first line whose outcome raises, and it raises `e`. */
  ghost predicate FirstRaise(outs: seq<LineOutcome>, j: int, e: LineError) {
    && 0 <= j < |outs|
    && outs[j] == Raises(e)
    && forall i :: 0 <= i < j ==> !outs[i].Raises?
  }

  /** Reading raises the error of the first line that raises, and only then. */
  lemma FirstRaiseWins(outs: seq<LineOutcome>, e: LineError)
    ensures Collect(outs) == Err(e) <==> exists j :: FirstRaise(outs, j, e)
  {
    if Collect(outs) == Err(e) {
      var j := RaiseHasCause(outs, e);
    }
    if j :| FirstRaise(outs, j, e) {
      FirstRaiseAborts(outs, j, e);
    }
  }

  lemma {:induction false} RaiseHasCause(outs: seq<LineOutcome>, e: LineError) returns (j: int)
    requires Collect(outs) == Err(e)
    ensures FirstRaise(outs, j, e)
    decreases |outs|
  {
    var n := |outs| - 1;
    var init := outs[..n];
    if Collect(init) == Err(e) {
      j := RaiseHasCause(init, e);
      assert outs[j] == init[j];
      assert forall i :: 0 <= i < j ==> outs[i] == init[i];
    } else {
      NoRaiseIsOk(init);
      assert outs[n] == Raises(e);
      assert forall i :: 0 <= i < n ==> outs[i] == init[i];
      j := n;
    }
  }

  lemma {:induction false} FirstRaiseAborts(outs: seq<LineOutcome>, j: int, e: LineError)
    requires FirstRaise(outs, j, e)
    ensures Collect(outs) == Err(e)
    decreases |outs|
  {
    var n := |outs| - 1;
    var init := outs[..n];
    if j < n {
      assert init[j] == outs[j];
      assert forall i :: 0 <= i < j ==> outs[i] == init[i];
      FirstRaiseAborts(init, j, e);
    } else {
      assert forall i :: 0 <= i < n ==> outs[i] == init[i];
      NoRaiseIsOk(init);
    }
  }

  /** A file none of whose lines raises is read to the end. */
  lemma {:induction false} NoRaiseIsOk(outs: seq<LineOutcome>)
    ensures Collect(outs).Ok? <==> forall j :: 0 <= j < |outs| ==> !outs[j].Raises?
    decreases |outs|
  {
    if |outs| > 0 {
      var n := |outs| - 1;
      NoRaiseIsOk(outs[..n]);
      assert forall j :: 0 <= j < n ==> outs[..n][j] == outs[j];
    }
  }

  /** `idx` lists, in increasing order, the lines that gave `es`; every other
      line is a comment or names a missing file. */
  ghost predicate InFileOrder(outs: seq<LineOutcome>, es: seq<Entry>, idx: seq<nat>) {
    && |idx| == |es|
    && (forall k :: 0 <= k < |idx| ==> idx[k] < |outs| && outs[idx[k]] == Image(es[k]))
    && (forall k, l :: 0 <= k < l < |idx| ==> idx[k] < idx[l])
    && (forall j :: 0 <= j < |outs| && j !in idx ==> outs[j].Comment? || outs[j].Missing?)
  }

  /** The entries are exactly the accepted lines, in file order, without
      reordering or removal of duplicates. */
  lemma {:induction false} InFileOrderRule(outs: seq<LineOutcome>, es: seq<Entry>) returns (idx: seq<nat>)
    requires Collect(outs) == Ok(es)
    ensures InFileOrder(outs, es, idx)
    decreases |outs|
  {
    if |outs| == 0 {
      idx := [];
    } else {
      var n := |outs| - 1;
      var init := outs[..n];
      var prev := Collect(init).value;
      var pidx := InFileOrderRule(init, prev);
      assert forall j :: 0 <= j < n ==> init[j] == outs[j];
      match outs[n]
      case Image(entry) =>
        assert es == prev + [entry];
        idx := pidx + [n];
        assert forall j :: 0 <= j < n && j !in idx ==> j !in pidx;
      case Comment =>
        idx := pidx;
      case Missing(_) =>
        idx := pidx;
    }
  }

  /** A completed reading yields no entry exactly when no outcome accepts an image. */
  lemma NoImageOutcome(outs: seq<LineOutcome>)
    requires Collect(outs).Ok?
    ensures |Collect(outs).value| == 0 <==> forall j :: 0 <= j < |outs| ==> !outs[j].Image?
  {
    var es := Collect(outs).value;
    var idx := InFileOrderRule(outs, es);
    if |es| > 0 {
      assert outs[idx[0]].Image?;
    } else {
      forall j | 0 <= j < |outs|
        ensures !outs[j].Image?
      {
        assert j !in idx;
      }
    }
  }

  /** Reading a descriptor that does not raise yields no entry exactly when
      none of its lines names an existing file. */
  lemma NoEntriesRule(lines: seq<string>, files: set<string>)
    requires Collect(Outcomes(lines, files)).Ok?
    ensures |Collect(Outcomes(lines, files)).value| == 0 <==>
      forall j :: 0 <= j < |lines| ==> !NamesExistingFile(lines[j], files)
  {
    var outs := Outcomes(lines, files);
    NoImageOutcome(outs);
    assert forall j :: 0 <= j < |lines| ==> (outs[j].Image? <==> NamesExistingFile(lines[j], files));
  }
}

=== FILE: descriptor_example.dfy ===
/** A worked line of the descriptor: `cdrom ro "My Disc.iso"`, a quoted name
    with a space in it, read while `/mnt/imgstore/My Disc.iso` exists. */
module DescriptorExample {
  import opened Maybe
  import opened Text
  import opened Config
  import opened Descriptor

  const QuotedLine: string := "cdrom ro \"My Disc.iso\""
  const QuotedWords: seq<string> := ["cdrom", "ro", "\"My", "Disc.iso\""]
  const DiscPath: string := "/mnt/imgstore/My Disc.iso"

  lemma OpeningQuote()
    ensures IndexFrom(QuotedLine, '"', 0) == Some(9)
  {
    assert QuotedLine[9] == '"';
    assert forall k :: 0 <= k < 9 ==> QuotedLine[k] != '"';
  }

  lemma ClosingQuote()
    ensures IndexFrom(QuotedLine, '"', 10) == Some(21)
  {
    assert QuotedLine[21] == '"';
    assert forall k :: 10 <= k < 21 ==> QuotedLine[k] != '"';
  }

  lemma QuotedSpanText()
    ensures QuotedLine[10..21] == "My Disc.iso"
  {
  }

  lemma QuotedLineWords()
    ensures Words(QuotedLine) == QuotedWords
  {
    var w := QuotedWords;
    assert Join(w[3..], ' ') == "Disc.iso\"";
    assert Join(w[2..], ' ') == "\"My" + " " + "Disc.iso\"";
    assert Join(w[1..], ' ') == "ro" + " " + "\"My Disc.iso\"";
    assert Join(w, ' ') == "cdrom" + " " + "ro \"My Disc.iso\"";
    assert Join(w, ' ') == QuotedLine;
    forall k | 0 <= k < |w|
      ensures ' ' !in w[k]
    {
    }
    SplitJoin(w, ' ');
  }

  /** The name is the text between the quotes, space included, although the
      last word alone is `Disc.iso"`. */
  lemma QuotedLineName()
    ensures FileName(QuotedLine) == Ok("My Disc.iso")
  {
    QuotedLineWords();
    OpeningQuote();
    ClosingQuote();
    QuotedSpanText();
  }

  /** Stripping leaves a text alone whose ends are not stripped. */
  lemma NothingToStrip(s: string, chars: set<char>)
    requires |s| > 0 && s[0] !in chars && s[|s| - 1] !in chars
    ensures StripLeft(s, chars) == s && StripRight(s, chars) == s
  {
  }

  lemma QuotedLineVisible()
    ensures Visible(QuotedLine + "\n") == QuotedLine
  {
    var line := QuotedLine + "\n";
    assert line[0] == 'c' && QuotedLine[0] == 'c' && QuotedLine[|QuotedLine| - 1] == '"';
    NothingToStrip(QuotedLine, LineBlanks);
    assert line[..|line| - 1] == QuotedLine;
    assert line[|line| - 1] in LineBlanks;
    assert StripLeft(line, LineBlanks) == line;
    assert StripRight(line, LineBlanks) == StripRight(QuotedLine, LineBlanks);
  }

  lemma QuotedLineDirective()
    ensures Directive(QuotedLine) == QuotedLine
  {
    assert QuotedLine[0] == 'c' && QuotedLine[|QuotedLine| - 1] == '"';
    NothingToStrip(QuotedLine, {' '});
    assert forall k :: 0 <= k < |QuotedLine| ==> QuotedLine[k] != '#';
    assert BeforeHash(QuotedLine) == QuotedLine;
  }

  lemma DiscPathJoin()
    ensures PathJoin(StoreMnt, "My Disc.iso") == DiscPath
  {
  }

  /** `cdrom` and `ro` are words of the line; `removable` and `nofua` are not. */
  lemma QuotedLineKeywords()
    ensures "cdrom" in QuotedWords && "ro" in QuotedWords
    ensures "removable" !in QuotedWords && "nofua" !in QuotedWords
  {
    assert QuotedWords[0] == "cdrom" && QuotedWords[1] == "ro";
    assert |"removable"| == 9 && |"nofua"| == 5;
    assert forall w :: w in QuotedWords ==> |w| in {5, 2, 3, 9};
    assert "removable"[0] != QuotedWords[3][0];
    assert "nofua"[0] != QuotedWords[0][0];
  }

  lemma QuotedLineDirectiveParse()
    ensures ParseDirective(QuotedLine, {DiscPath}) == Image(Entry(DiscPath, false, true, true, false))
  {
    QuotedLineName();
    DiscPathJoin();
    QuotedLineWords();
    QuotedLineKeywords();
  }

  /** The line, read with its newline, mounts `My Disc.iso` as a read-only
      CD-ROM, neither removable nor `nofua`. */
  lemma QuotedLineParses()
    ensures ParseLine(QuotedLine + "\n", {DiscPath}) == Image(Entry(DiscPath, false, true, true, false))
  {
    QuotedLineVisible();
    QuotedLineDirective();
    QuotedLineDirectiveParse();
    assert QuotedLine[0] == 'c';
  }

  /** A quote that is never closed: `ro "half.iso`. */
  const HalfQuoted: string := "ro \"half.iso"

  lemma HalfQuotedWords()
    ensures Words(HalfQuoted) == ["ro", "\"half.iso"]
  {
    assert Join(["ro", "\"half.iso"], ' ') == HalfQuoted;
    SplitJoin(["ro", "\"half.iso"], ' ');
  }

  lemma HalfQuotedQuotes()
    ensures IndexFrom(HalfQuoted, '"', 0) == Some(3)
    ensures IndexFrom(HalfQuoted, '"', 4) == None
  {
    assert HalfQuoted[3] == '"';
    assert forall k :: 0 <= k < 3 ==> HalfQuoted[k] != '"';
    assert forall k :: 4 <= k < |HalfQuoted| ==> HalfQuoted[k] != '"';
  }

  lemma HalfQuotedVisible()
    ensures Visible(HalfQuoted + "\n") == HalfQuoted
  {
    var line := HalfQuoted + "\n";
    assert line[0] == 'r' && HalfQuoted[0] == 'r' && HalfQuoted[|HalfQuoted| - 1] == 'o';
    NothingToStrip(HalfQuoted, LineBlanks);
    assert line[..|line| - 1] == HalfQuoted;
    assert line[|line| - 1] in LineBlanks;
    assert StripLeft(line, LineBlanks) == line;
    assert StripRight(line, LineBlanks) == StripRight(HalfQuoted, LineBlanks);
  }

  lemma HalfQuotedDirective()
    ensures Directive(HalfQuoted) == HalfQuoted
  {
    assert HalfQuoted[0] == 'r' && HalfQuoted[|HalfQuoted| - 1] == 'o';
    NothingToStrip(HalfQuoted, {' '});
    assert forall k :: 0 <= k < |HalfQuoted| ==> HalfQuoted[k] != '#';
    assert BeforeHash(HalfQuoted) == HalfQuoted;
  }

  lemma HalfQuotedName()
    ensures FileName(HalfQuoted) == Err(UnmatchedQuote)
  {
    HalfQuotedWords();
    HalfQuotedQuotes();
    assert "\"half.iso"[0] == '"';
  }

  /** Reading the unclosed quote raises, whatever files exist. */
  lemma HalfQuotedRaises(files: set<string>)
    ensures ParseLine(HalfQuoted + "\n", files) == Raises(UnmatchedQuote)
  {
    HalfQuotedVisible();
    HalfQuotedDirective();
    HalfQuotedName();
    assert HalfQuoted[0] == 'r';
  }
}

=== FILE: gadget.dfy ===
/** Loading and unloading the mass-storage gadget module: `disable_emu`,
    `enable_cdrom` and `enable_store`. */
module Gadget {
  import opened Config
  import opened State

  const Unload: Command := Run(["rmmod", GadgetModule])

  /** `modprobe g_mass_storage <args>`. */
  function Load(args: seq<string>): Command {
    Run(["modprobe", GadgetModule] + args)
  }

  /** The two arguments that expose the whole store partition, removable. */
  function StoreArgs(): (args: seq<string>)
    ensures args == ["file=/dev/mmcblk0p3", "removable=y"]
  {
    var file := "file=" + StoreDev;
    assert |file| == 19 && forall k :: 0 <= k < 19 ==> file[k] == "file=/dev/mmcblk0p3"[k];
    assert file == "file=/dev/mmcblk0p3";
    [file, "removable=y"]
  }

  /** `disable_emu`: unloads the module unless emulation is already off.
      Whatever `rmmod` returns, emulation counts as off and the call
      succeeds. */
  function DisableEmu(s: Daemon, rmmodExit: int): (r: Step)
    ensures r.ok
    ensures r.state == s.(emuMode := Disabled)
    ensures r.trace == [] <==> s.emuMode == Disabled
    ensures r.trace != [] ==> r.trace == [Unload]
  {
    if s.emuMode == Disabled then Step(true, s, [])
    else Step(true, s.(emuMode := Disabled), [Unload])
  }

  /** Loads the module in `mode` with `args`, unless emulation is already on
      (in either mode), in which case nothing is run and the call succeeds.
      The shared body of `enable_cdrom` and `enable_store`. */
  function Enable(s: Daemon, mode: Mode, args: seq<string>, modprobeExit: int): (r: Step)
    requires mode != Disabled
    ensures r.state == s.(emuMode := r.state.emuMode)
    ensures r.ok <==> r.state.emuMode != Disabled
    ensures s.emuMode != Disabled ==> r == Step(true, s, [])
    ensures s.emuMode == Disabled ==> r.trace == [Load(args)]
    ensures s.emuMode == Disabled ==> (r.ok <==> modprobeExit == 0)
    ensures s.emuMode == Disabled && r.ok ==> r.state.emuMode == mode
  {
    if s.emuMode != Disabled then Step(true, s, [])
    else if modprobeExit != 0 then Step(false, s, [Load(args)])
    else Step(true, s.(emuMode := mode), [Load(args)])
  }

  /** `enable_cdrom(mount_args)`. */
  function EnableCdrom(s: Daemon, args: seq<string>, modprobeExit: int): (r: Step)
    ensures r.ok <==> r.state.emuMode != Disabled
    ensures r.state == s.(emuMode := r.state.emuMode)
    ensures s.emuMode != Disabled ==> r == Step(true, s, [])
    ensures s.emuMode == Disabled ==> (r.ok <==> modprobeExit == 0)
    ensures s.emuMode == Disabled && r.ok ==> r.state.emuMode == CdRom
    ensures s.emuMode == Disabled ==> r.trace == [Run(["modprobe", "g_mass_storage"] + args)]
  {
    Enable(s, CdRom, args, modprobeExit)
  }

  /** `enable_store()`: the module gets exactly `file=/dev/mmcblk0p3` and
      `removable=y`. */
  function EnableStore(s: Daemon, modprobeExit: int): (r: Step)
    ensures r.ok <==> r.state.emuMode != Disabled
    ensures r.state == s.(emuMode := r.state.emuMode)
    ensures s.emuMode != Disabled ==> r == Step(true, s, [])
    ensures s.emuMode == Disabled ==> (r.ok <==> modprobeExit == 0)
    ensures s.emuMode == Disabled && r.ok ==> r.state.emuMode == Store
    ensures s.emuMode == Disabled ==>
      r.trace == [Run(["modprobe", "g_mass_storage", "file=/dev/mmcblk0p3", "removable=y"])]
  {
    assert ["modprobe", GadgetModule] + StoreArgs()
        == ["modprobe", "g_mass_storage", "file=/dev/mmcblk0p3", "removable=y"];
    Enable(s, Store, StoreArgs(), modprobeExit)
  }

  /** Disabling twice runs `rmmod` at most once; the second call changes
      nothing. */
  lemma DisableIdempotent(s: Daemon, first: int, second: int)
    ensures var once := DisableEmu(s, first);
      DisableEmu(once.state, second) == Step(true, once.state, [])
  {
  }

  /** The exit code of `rmmod` makes no difference. */
  lemma DisableIgnoresExit(s: Daemon, a: int, b: int)
    ensures DisableEmu(s, a) == DisableEmu(s, b)
  {
  }

  /** Enabling while a mode is active, whatever the mode asked for, is a no-op:
      a mode is never switched without a disable first. */
  lemma EnableNeedsDisable(s: Daemon, args: seq<string>, exit: int)
    requires s.emuMode != Disabled
    ensures EnableCdrom(s, args, exit) == Step(true, s, [])
    ensures EnableStore(s, exit) == Step(true, s, [])
  {
  }

  /** After a disable, enabling runs `modprobe` exactly once, and the gadget
      ends in the requested mode exactly when `modprobe` succeeded. */
  lemma DisableThenEnable(s: Daemon, rmmodExit: int, args: seq<string>, exit: int)
    ensures var d := DisableEmu(s, rmmodExit).state;
      && EnableCdrom(d, args, exit).trace == [Load(args)]
      && (EnableCdrom(d, args, exit).state.emuMode == CdRom <==> exit == 0)
      && (EnableStore(d, exit).state.emuMode == Store <==> exit == 0)
  {
  }
}

=== FILE: image_args.dfy ===
/** `get_images_to_mount`: from the descriptor file to the five
    `key=value,value,...` arguments of the mass-storage gadget module, one
    value per accepted line, in file order. */
module ImageArgs {
  import opened Maybe
  import opened Text
  import opened Config
  import opened Descriptor

  /** The five gadget parameters, in the order the arguments are built. */
  datatype Field = FileField | RemovableField | CdromField | RoField | NofuaField

  /** `key=` for one parameter. */
  function Prefix(f: Field): string {
    match f
    case FileField => "file="
    case RemovableField => "removable="
    case CdromField => "cdrom="
    case RoField => "ro="
    case NofuaField => "nofua="
  }

  function YesNo(b: bool): string {
    if b then "y" else "n"
  }

  /** The value one entry gives to one parameter. */
  function Item(e: Entry, f: Field): string {
    match f
    case FileField => e.path
    case RemovableField => YesNo(e.removable)
    case CdromField => YesNo(e.cdrom)
    case RoField => YesNo(e.ro)
    case NofuaField => YesNo(e.nofua)
  }

  /** The values of one parameter, one per entry, in entry order. */
  function Column(es: seq<Entry>, f: Field): (col: seq<string>)
    ensures |col| == |es|
    ensures forall k :: 0 <= k < |es| ==> col[k] == Item(es[k], f)
  {
    seq(|es|, k requires 0 <= k < |es| => Item(es[k], f))
  }

  /** `key=v1,v2,...` for one parameter. */
  function Argument(es: seq<Entry>, f: Field): string {
    Prefix(f) + Join(Column(es, f), ',')
  }

  /** The five module arguments for a list of entries. */
  function Serialize(es: seq<Entry>): seq<string> {
    [ Argument(es, FileField), Argument(es, RemovableField), Argument(es, CdromField),
      Argument(es, RoField), Argument(es, NofuaField) ]
  }

  /** What `get_images_to_mount` does: return a list of arguments or `None`,
      or raise. */
  datatype Parsed = Returned(args: Option<seq<string>>) | Raised(error: LineError)

  /** Reference definition, given whether the descriptor exists and the
      outcomes of its lines: no descriptor or no accepted line means `None`. */
  function Assemble(present: bool, outs: seq<LineOutcome>): Parsed {
    if !present then Returned(None)
    else
      match Collect(outs)
      case Err(e) => Raised(e)
      case Ok(es) => if |es| > 0 then Returned(Some(Serialize(es))) else Returned(None)
  }

  /** `get_images_to_mount` for the existing regular files `files` and the
      lines of the descriptor. */
  function ImagesToMount(files: set<string>, lines: seq<string>): Parsed {
    Assemble(DescriptorPath() in files, Outcomes(lines, files))
  }

  /** Appending an entry appends its value to every column. */
  lemma ColumnAppend(es: seq<Entry>, e: Entry, f: Field)
    ensures Column(es + [e], f) == Column(es, f) + [Item(e, f)]
  {
  }

  /** `get_images_to_mount`: `None` without a descriptor, otherwise the
      arguments its lines give. Reading a line is a pure function of the line
      and of the existing files, so the outcomes are the lines' own. */
  method GetImagesToMount(files: set<string>, lines: seq<string>) returns (r: Parsed)
    ensures r == ImagesToMount(files, lines)
  {
    if DescriptorPath() !in files {
      return Returned(None);
    }
    r := CollectArguments(Outcomes(lines, files));
  }

  /** The loop of `get_images_to_mount`: walk the lines' outcomes in order,
      stop at the first that raises, append each accepted line's path and
      flags to five lists, then join each list with commas behind its key. */
  method CollectArguments(outs: seq<LineOutcome>) returns (r: Parsed)
    ensures r == Assemble(true, outs)
  {
    ghost var es: seq<Entry> := [];
    var paths: seq<string> := [];
    var removable: seq<string> := [];
    var cdrom: seq<string> := [];
    var ro: seq<string> := [];
    var nofua: seq<string> := [];
    var i := 0;
    while i < |outs|
      invariant i <= |outs|
      invariant Collect(outs[..i]) == Ok(es)
      invariant paths == Column(es, FileField)
      invariant removable == Column(es, RemovableField)
      invariant cdrom == Column(es, CdromField)
      invariant ro == Column(es, RoField)
      invariant nofua == Column(es, NofuaField)
    {
      var o := outs[i];
      CollectStep(outs, i, es);
      match o {
        case Raises(e) =>
          AbortIsFinal(outs, i + 1);
          return Raised(e);
        case Image(entry) =>
          paths := paths + [entry.path];
          removable := removable + [YesNo(entry.removable)];
          cdrom := cdrom + [YesNo(entry.cdrom)];
          ro := ro + [YesNo(entry.ro)];
          nofua := nofua + [YesNo(entry.nofua)];
          ColumnAppend(es, entry, FileField);
          ColumnAppend(es, entry, RemovableField);
          ColumnAppend(es, entry, CdromField);
          ColumnAppend(es, entry, RoField);
          ColumnAppend(es, entry, NofuaField);
          es := es + [entry];
        case Comment =>
        case Missing(_) =>
      }
      i := i + 1;
    }
    assert outs[..i] == outs;
    if |paths| > 0 {
      r := Returned(Some([
        "file=" + Join(paths, ','),
        "removable=" + Join(removable, ','),
        "cdrom=" + Join(cdrom, ','),
        "ro=" + Join(ro, ','),
        "nofua=" + Join(nofua, ',')]));
    } else {
      r := Returned(None);
    }
  }

  /** The result is `None` exactly when the descriptor is missing or none of
      its lines names an existing file (none raising). */
  lemma NoneRule(present: bool, outs: seq<LineOutcome>)
    ensures Assemble(present, outs) == Returned(None) <==>
      !present || forall j :: 0 <= j < |outs| ==> outs[j].Comment? || outs[j].Missing?
  {
    NoRaiseIsOk(outs);
    if Collect(outs).Ok? {
      NoImageOutcome(outs);
    }
  }

  /** The same, line by line: nothing to mount exactly when the descriptor
      is missing, or none of its lines raises and none names an existing
      file. */
  lemma NothingToMount(files: set<string>, lines: seq<string>)
    ensures ImagesToMount(files, lines) == Returned(None) <==>
      || DescriptorPath() !in files
      || forall j :: 0 <= j < |lines| ==> !RaisingLine(lines[j]) && !NamesExistingFile(lines[j], files)
  {
    var outs := Outcomes(lines, files);
    NoneRule(DescriptorPath() in files, outs);
    assert forall j :: 0 <= j < |lines| ==>
      (outs[j].Comment? || outs[j].Missing? <==> !RaisingLine(lines[j]) && !NamesExistingFile(lines[j], files));
  }

  /** Reading raises exactly when the descriptor exists and one of its lines
      raises; the error is that of the first such line. */
  lemma RaisedRule(present: bool, outs: seq<LineOutcome>, e: LineError)
    ensures Assemble(present, outs) == Raised(e) <==> present && exists j :: FirstRaise(outs, j, e)
  {
    FirstRaiseWins(outs, e);
  }

  /** A successful reading gives exactly five arguments, prefixed `file=`,
      `removable=`, `cdrom=`, `ro=`, `nofua=` in that order; each flag
      argument splits on commas into one item per accepted line, in file
      order, and so does `file=` when no path holds a comma. */
  lemma ShapeRule(present: bool, outs: seq<LineOutcome>)
    requires Assemble(present, outs).Returned? && Assemble(present, outs).args.Some?
    ensures Collect(outs).Ok? && |Collect(outs).value| > 0
    ensures Assemble(present, outs).args.value == Serialize(Collect(outs).value)
    ensures SerializedShape(Collect(outs).value, Assemble(present, outs).args.value)
  {
    SerializeShape(Collect(outs).value);
  }

  /** Five arguments with the parameter prefixes in order, whose flag values
      are the columns of `es`, and whose file values are too unless a path
      holds a comma. */
  ghost predicate SerializedShape(es: seq<Entry>, args: seq<string>) {
    && |args| == 5
    && "file=" <= args[0] && "removable=" <= args[1] && "cdrom=" <= args[2]
    && "ro=" <= args[3] && "nofua=" <= args[4]
    && Split(args[1][10..], ',') == Column(es, RemovableField)
    && Split(args[2][6..], ',') == Column(es, CdromField)
    && Split(args[3][3..], ',') == Column(es, RoField)
    && Split(args[4][6..], ',') == Column(es, NofuaField)
    && ((forall k :: 0 <= k < |es| ==> ',' !in es[k].path) ==>
          Split(args[0][5..], ',') == Column(es, FileField))
  }

  lemma SerializeShape(es: seq<Entry>)
    requires |es| > 0
    ensures SerializedShape(es, Serialize(es))
  {
    ItemsOfArgument(es, RemovableField);
    ItemsOfArgument(es, CdromField);
    ItemsOfArgument(es, RoField);
    ItemsOfArgument(es, NofuaField);
    if forall k :: 0 <= k < |es| ==> ',' !in es[k].path {
      ItemsOfArgument(es, FileField);
    }
  }

  /** Splitting an argument's value on commas gives the column back, one
      item per entry, as long as no item holds a comma. */
  lemma ItemsOfArgument(es: seq<Entry>, f: Field)
    requires |es| > 0
    requires f == FileField ==> forall k :: 0 <= k < |es| ==> ',' !in es[k].path
    ensures Prefix(f) <= Argument(es, f)
    ensures Split(Argument(es, f)[|Prefix(f)|..], ',') == Column(es, f)
  {
    var p := Prefix(f);
    var col := Column(es, f);
    assert Argument(es, f) == p + Join(col, ',');
    assert Argument(es, f)[|p|..] == Join(col, ',');
    forall k | 0 <= k < |col|
      ensures ',' !in col[k]
    {
      if f != FileField {
        assert col[k] == "y" || col[k] == "n";
      }
    }
    SplitJoin(col, ',');
  }

  /** The values after `key=` in an argument, split on commas. */
  function Values(arg: string, f: Field): Option<seq<string>> {
    var p := Prefix(f);
    if p <= arg then Some(Split(arg[|p|..], ',')) else None
  }

  predicate IsFlags(col: seq<string>) {
    forall k :: 0 <= k < |col| ==> col[k] == "y" || col[k] == "n"
  }

  /** Pairs the k-th value of each parameter into the k-th entry. */
  function Zip(paths: seq<string>, rm: seq<string>, cd: seq<string>, ro: seq<string>, nf: seq<string>): (es: seq<Entry>)
    requires |rm| == |paths| && |cd| == |paths| && |ro| == |paths| && |nf| == |paths|
    ensures |es| == |paths|
  {
    seq(|paths|, k requires 0 <= k < |paths| =>
      Entry(paths[k], rm[k] == "y", cd[k] == "y", ro[k] == "y", nf[k] == "y"))
  }

  /** Reads the five arguments back into entries, pairing the k-th value of
      each parameter; `None` unless there are five arguments with the
      expected keys, columns of equal length and flags spelled `y` or `n`. */
  function Decode(args: seq<string>): Option<seq<Entry>> {
    if |args| != 5 then None
    else
      var paths := Values(args[0], FileField);
      var rm := Values(args[1], RemovableField);
      var cd := Values(args[2], CdromField);
      var ro := Values(args[3], RoField);
      var nf := Values(args[4], NofuaField);
      if && paths.Some? && rm.Some? && cd.Some? && ro.Some? && nf.Some?
         && |rm.value| == |paths.value| && |cd.value| == |paths.value|
         && |ro.value| == |paths.value| && |nf.value| == |paths.value|
         && IsFlags(rm.value) && IsFlags(cd.value) && IsFlags(ro.value) && IsFlags(nf.value)
      then Some(Zip(paths.value, rm.value, cd.value, ro.value, nf.value))
      else None
  }

  /** `"y"` reads back as set, `"n"` as clear. */
  lemma YesNoBack(b: bool)
    ensures (YesNo(b) == "y") == b
  {
    if !b {
      assert YesNo(b)[0] != "y"[0];
    }
  }

  /** A flag column holds only `y` and `n`. */
  lemma FlagColumn(es: seq<Entry>, f: Field)
    requires f != FileField
    ensures IsFlags(Column(es, f))
  {
  }

  /** Pairing the columns of a list of entries gives the list back. */
  lemma ZipColumns(es: seq<Entry>)
    ensures Zip(Column(es, FileField), Column(es, RemovableField), Column(es, CdromField),
                Column(es, RoField), Column(es, NofuaField)) == es
  {
    var z := Zip(Column(es, FileField), Column(es, RemovableField), Column(es, CdromField),
                 Column(es, RoField), Column(es, NofuaField));
    forall k | 0 <= k < |es|
      ensures z[k] == es[k]
    {
      YesNoBack(es[k].removable);
      YesNoBack(es[k].cdrom);
      YesNoBack(es[k].ro);
      YesNoBack(es[k].nofua);
    }
  }

  /** Serializing a non-empty list of entries and reading the arguments back
      gives the entries again, flags and order included, when no path holds
      a comma. */
  lemma RoundTrip(es: seq<Entry>)
    requires |es| > 0
    requires forall k :: 0 <= k < |es| ==> ',' !in es[k].path
    ensures Decode(Serialize(es)) == Some(es)
  {
    var args := Serialize(es);
    ItemsOfArgument(es, FileField);
    ItemsOfArgument(es, RemovableField);
    ItemsOfArgument(es, CdromField);
    ItemsOfArgument(es, RoField);
    ItemsOfArgument(es, NofuaField);
    FlagColumn(es, RemovableField);
    FlagColumn(es, CdromField);
    FlagColumn(es, RoField);
    FlagColumn(es, NofuaField);
    ZipColumns(es);
  }
}

=== FILE: indicator.dfy ===
/** The two status LEDs. Each keeps the last state name it accepted; a name
    it does not know leaves it as it was. Blink timings are not modelled. */
module Indicator {
  /** What the activity LED shows. */
  datatype ActShow = ActError | ActWait | ActIdle

  /** What the mode LED shows. */
  datatype ModeShow = ModeCdrom | ModeStore | ModeWait | ModeUpdate

  /** `led_act_state(state)`: `error`, `wait` and `idle` are shown, any other
      name is ignored. */
  function ActLed(current: ActShow, state: string): (shown: ActShow)
    ensures shown == ActError <==> state == "error" || (current == ActError && state !in {"wait", "idle"})
    ensures shown == ActWait <==> state == "wait" || (current == ActWait && state !in {"error", "idle"})
    ensures shown == ActIdle <==> state == "idle" || (current == ActIdle && state !in {"error", "wait"})
  {
    if state == "error" then ActError
    else if state == "wait" then ActWait
    else if state == "idle" then ActIdle
    else current
  }

  /** `led_mode_state(state)`: `cdrom`, `store`, `wait` and `update` are shown,
      any other name is ignored. */
  function ModeLed(current: ModeShow, state: string): (shown: ModeShow)
    ensures state !in {"cdrom", "store", "wait", "update"} ==> shown == current
    ensures shown == ModeCdrom <==> state == "cdrom" || (current == ModeCdrom && state !in {"store", "wait", "update"})
    ensures shown == ModeStore <==> state == "store" || (current == ModeStore && state !in {"cdrom", "wait", "update"})
    ensures shown == ModeWait <==> state == "wait" || (current == ModeWait && state !in {"cdrom", "store", "update"})
    ensures shown == ModeUpdate <==> state == "update" || (current == ModeUpdate && state !in {"cdrom", "store", "wait"})
  {
    if state == "cdrom" then ModeCdrom
    else if state == "store" then ModeStore
    else if state == "wait" then ModeWait
    else if state == "update" then ModeUpdate
    else current
  }

  /** Setting the same state twice shows what setting it once does. */
  lemma LedsIdempotent(act: ActShow, mode: ModeShow, state: string)
    ensures ActLed(ActLed(act, state), state) == ActLed(act, state)
    ensures ModeLed(ModeLed(mode, state), state) == ModeLed(mode, state)
  {
  }

  /** The last known name wins: a later known name hides whatever came before. */
  lemma ActLastWins(act: ActShow, first: string, second: string)
    requires second in {"error", "wait", "idle"}
    ensures ActLed(ActLed(act, first), second) == ActLed(act, second)
  {
  }

  lemma ModeLastWins(mode: ModeShow, first: string, second: string)
    requires second in {"cdrom", "store", "wait", "update"}
    ensures ModeLed(ModeLed(mode, first), second) == ModeLed(mode, second)
  {
  }
}

=== FILE: maybe.dfy ===
/** Optional values and results with an error, used wherever the daemon's
    Python code returns `None` or raises. */
module Maybe {

  datatype Option<T> = None | Some(value: T)

  datatype Result<T, E> = Ok(value: T) | Err(error: E)
}

=== FILE: state.dfy ===
/** The daemon's state: the gadget mode in force, whether it believes the
    image store is mounted, the mode it last switched to, and what each LED
    shows. The commands it issues are recorded in a trace; their results and
    what it observes of the file system are inputs. */
module State {
  import opened Indicator

  /** `emu_mode` and `current_mode`: 0 disabled, 1 CD-ROM, 2 image store. */
  datatype Mode = Disabled | CdRom | Store

  /** A command the daemon runs: a program with its arguments, or the
      creation of a directory. */
  datatype Command = Run(argv: seq<string>) | MakeDirs(path: string)

  datatype Daemon = Daemon(
    emuMode: Mode,
    storeMounted: bool,
    currentMode: Mode,
    modeLed: ModeShow,
    actLed: ActShow)

  /** At start-up the gadget is assumed loaded in CD-ROM mode, the store is
      believed unmounted, and both LEDs wait. */
  const Initial: Daemon := Daemon(CdRom, false, CdRom, ModeWait, ActWait)

  /** One helper's result: what it returned, the state after it, and the
      commands it ran, in order. */
  datatype Step = Step(ok: bool, state: Daemon, trace: seq<Command>)
}

=== FILE: storage.dfy ===
/** Mounting the image store on the board itself: `mount_store` and
    `unmount_store`. The daemon's own flag and what `os.path.ismount` reports
    are both consulted. */
module Storage {
  import opened Config
  import opened State

  /** `mount [-o ro] /dev/mmcblk0p3 /mnt/imgstore`. */
  function MountArgv(rw: bool): (argv: seq<string>)
    ensures |argv| == (if rw then 3 else 5)
    ensures argv[0] == "mount" && argv[|argv| - 2..] == [StoreDev, StoreMnt]
    ensures !rw ==> argv[1..3] == ["-o", "ro"]
    ensures "ro" in argv <==> !rw
    ensures "-o" in argv <==> !rw
  {
    ["mount"] + (if rw then [] else ["-o", "ro"]) + [StoreDev, StoreMnt]
  }

  const Sync: Command := Run(["sync"])
  const Umount: Command := Run(["umount", StoreDev])

  /** `mount_store(rw)`. Already mounted, by the flag or by observation: the
      flag is set and nothing is run. Otherwise the mount point is created if
      missing, then mounted (read-only unless `rw`); the flag follows the
      exit code. */
  function MountStore(s: Daemon, rw: bool, observedMounted: bool, dirExists: bool, mountExit: int): (r: Step)
    ensures r.state == s.(storeMounted := r.state.storeMounted)
    ensures r.ok <==> r.state.storeMounted
    ensures s.storeMounted || observedMounted ==> r == Step(true, s.(storeMounted := true), [])
    ensures !s.storeMounted && !observedMounted ==>
      && (r.ok <==> mountExit == 0)
      && r.trace == (if dirExists then [] else [MakeDirs(StoreMnt)]) + [Run(MountArgv(rw))]
      && |r.trace| > 0 && r.trace[|r.trace| - 1] == Run(MountArgv(rw))
      && (MakeDirs(StoreMnt) in r.trace <==> !dirExists)
  {
    if s.storeMounted || observedMounted then Step(true, s.(storeMounted := true), [])
    else
      var prepare := if dirExists then [] else [MakeDirs(StoreMnt)];
      var trace := prepare + [Run(MountArgv(rw))];
      if mountExit != 0 then Step(false, s, trace)
      else Step(true, s.(storeMounted := true), trace)
  }

  /** `unmount_store()`. Unless the flag and the observation both say
      mounted, the flag is cleared and nothing is run. Otherwise `sync` then
      `umount` run, and the flag is cleared only if `umount` succeeded. */
  function UnmountStore(s: Daemon, observedMounted: bool, umountExit: int): (r: Step)
    ensures r.state == s.(storeMounted := r.state.storeMounted)
    ensures r.ok <==> !r.state.storeMounted
    ensures !(s.storeMounted && observedMounted) ==> r == Step(true, s.(storeMounted := false), [])
    ensures s.storeMounted && observedMounted ==>
      && r.trace == [Run(["sync"]), Run(["umount", "/dev/mmcblk0p3"])]
      && (r.ok <==> umountExit == 0)
  {
    if !s.storeMounted || !observedMounted then Step(true, s.(storeMounted := false), [])
    else if umountExit != 0 then Step(false, s, [Sync, Umount])
    else Step(true, s.(storeMounted := false), [Sync, Umount])
  }

  /** Mounting twice runs `mount` at most once: the second call finds the
      flag set, whatever is observed. */
  lemma MountIdempotent(s: Daemon, rw: bool, seen: bool, dir: bool, exit: int,
                        rw2: bool, seen2: bool, dir2: bool, exit2: int)
    ensures var once := MountStore(s, rw, seen, dir, exit);
      once.ok ==> MountStore(once.state, rw2, seen2, dir2, exit2) == Step(true, once.state, [])
  {
  }

  /** Unmounting twice runs `umount` at most once. */
  lemma UnmountIdempotent(s: Daemon, seen: bool, exit: int, seen2: bool, exit2: int)
    ensures var once := UnmountStore(s, seen, exit);
      once.ok ==> UnmountStore(once.state, seen2, exit2) == Step(true, once.state, [])
  {
  }

  /** What `os.path.ismount` reports is consulted only when the flag does not
      already decide: mount asks only when the flag is clear, unmount only
      when it is set. */
  lemma ObservationConsultedOnlyWhenNeeded(s: Daemon, rw: bool, dir: bool, exit: int)
    ensures s.storeMounted ==> MountStore(s, rw, false, dir, exit) == MountStore(s, rw, true, dir, exit)
    ensures !s.storeMounted ==> UnmountStore(s, false, exit) == UnmountStore(s, true, exit)
  {
  }

  /** A mount followed by an unmount that both ran their commands and
      succeeded leaves the flag as it was before: clear. */
  lemma MountThenUnmount(s: Daemon, rw: bool, dir: bool, mountExit: int, umountExit: int)
    requires !s.storeMounted && mountExit == 0 && umountExit == 0
    ensures var m := MountStore(s, rw, false, dir, mountExit);
      var u := UnmountStore(m.state, true, umountExit);
      && u.state == s
      && u.trace == [Run(["sync"]), Run(["umount", "/dev/mmcblk0p3"])]
  {
  }
}

=== FILE: switch_rules.dfy ===
/** What the switches promise: which steps run, what the activity LED ends
    up showing, which mode is committed, and a state invariant every switch
    re-establishes. */
module SwitchRules {
  import opened Maybe
  import opened Config
  import opened Descriptor
  import opened ImageArgs
  import opened Indicator
  import opened State
  import opened Gadget
  import opened Storage
  import opened Controller

  /** `cmd` loads the gadget module. */
  predicate IsLoad(cmd: Command) {
    cmd.Run? && |cmd.argv| > 0 && cmd.argv[0] == "modprobe"
  }

  /** The trace loads the gadget module at some point. */
  ghost predicate Loads(trace: seq<Command>) {
    exists i :: 0 <= i < |trace| && IsLoad(trace[i])
  }

  /** Mounting the store succeeds: it was known or seen mounted, or `mount`
      succeeded. */
  predicate MountSucceeds(s: Daemon, env: Env) {
    s.storeMounted || env.storeIsMount || env.mountExit == 0
  }

  /** Unmounting the store succeeds: it was not both known and seen mounted,
      or `umount` succeeded. */
  predicate UnmountSucceeds(s: Daemon, env: Env) {
    !(s.storeMounted && env.storeIsMount) || env.umountExit == 0
  }

  /** Neither `rmmod`, `mount`, `sync`, `umount` nor `mkdir` loads the module. */
  lemma OnlyModprobeLoads(s: Daemon, env: Env)
    ensures !Loads(DisableEmu(s, env.rmmodExit).trace)
    ensures !Loads(MountStore(s, false, env.storeIsMount, env.mountDirExists, env.mountExit).trace)
    ensures !Loads(UnmountStore(s, env.storeIsMount, env.umountExit).trace)
  {
    assert "rmmod"[0] != "modprobe"[0];
    assert MountArgv(false)[0] == "mount" && "mount"[2] != "modprobe"[2];
    assert "sync"[0] != "modprobe"[0] && "umount"[0] != "modprobe"[0];
  }

  lemma LoadsAppend(a: seq<Command>, b: seq<Command>)
    ensures Loads(a + b) <==> Loads(a) || Loads(b)
  {
    if Loads(a + b) {
      var i :| 0 <= i < |a + b| && IsLoad((a + b)[i]);
      if i >= |a| {
        assert b[i - |a|] == (a + b)[i];
      }
    }
    if Loads(a) {
      var i :| 0 <= i < |a| && IsLoad(a[i]);
      assert (a + b)[i] == a[i];
    }
    if Loads(b) {
      var i :| 0 <= i < |b| && IsLoad(b[i]);
      assert (a + b)[|a| + i] == b[i];
    }
  }

  /** `switch_cdrom` raises exactly when reading the descriptor raises, and
      then loads nothing. Otherwise it loads the module exactly when the
      store is mounted and there are images, and the activity LED ends
      `idle` exactly when, in addition, `modprobe` succeeded; `error`
      otherwise. */
  lemma {:induction false} CdromGating(s: Daemon, env: Env)
    ensures var t := SwitchCdrom(s, env); var p := ImagesToMount(env.files, env.descriptor);
      && t.raised == (if p.Raised? then Some(p.error) else None)
      && (t.raised.Some? ==> !Loads(t.trace))
      && (t.raised.None? ==> (Loads(t.trace) <==> MountSucceeds(s, env) && p.args.Some?))
      && (t.raised.None? ==>
            (t.state.actLed == ActIdle <==> MountSucceeds(s, env) && p.args.Some? && env.modprobeExit == 0))
      && (t.raised.None? ==> (t.state.actLed == ActError <==> t.state.actLed != ActIdle))
  {
    var t := SwitchCdrom(s, env);
    var p := ImagesToMount(env.files, env.descriptor);
    var s1 := s.(modeLed := ModeLed(s.modeLed, "cdrom"), actLed := ActLed(s.actLed, "wait"));
    var disable := DisableEmu(s1, env.rmmodExit);
    var mount := MountStore(disable.state, false, env.storeIsMount, env.mountDirExists, env.mountExit);
    OnlyModprobeLoads(s1, env);
    OnlyModprobeLoads(disable.state, env);
    LoadsAppend(disable.trace, mount.trace);
    if p.Returned? {
      var r := mount.ok && p.args.Some?;
      if r {
        var enable := EnableCdrom(mount.state, p.args.value, env.modprobeExit);
        assert IsLoad(enable.trace[0]);
        LoadsAppend(disable.trace + mount.trace, enable.trace);
      } else {
        LoadsAppend(disable.trace + mount.trace, []);
      }
    }
  }

  /** `switch_store` loads the module exactly when unmounting succeeded, and
      the activity LED ends `idle` exactly when `modprobe` succeeded too. */
  lemma {:induction false} StoreGating(s: Daemon, env: Env)
    ensures var t := SwitchStore(s, env);
      && (Loads(t.trace) <==> UnmountSucceeds(s, env))
      && (t.state.actLed == ActIdle <==> UnmountSucceeds(s, env) && env.modprobeExit == 0)
      && (t.state.actLed == ActError <==> t.state.actLed != ActIdle)
  {
    var s0 := s.(modeLed := ModeLed(ModeLed(s.modeLed, "store"), "wait"));
    var disable := DisableEmu(s0, env.rmmodExit);
    var unmount := UnmountStore(disable.state, env.storeIsMount, env.umountExit);
    OnlyModprobeLoads(s0, env);
    OnlyModprobeLoads(disable.state, env);
    LoadsAppend(disable.trace, unmount.trace);
    if unmount.ok {
      var enable := EnableStore(unmount.state, env.modprobeExit);
      assert IsLoad(enable.trace[0]);
      LoadsAppend(disable.trace + unmount.trace, enable.trace);
    } else {
      LoadsAppend(disable.trace + unmount.trace, []);
    }
  }

  /** The commands `switch_cdrom` runs, in order: `rmmod` if emulation was
      on; `mkdir` if needed and a read-only `mount` unless the store was
      known or seen mounted; `modprobe` with the images only if the store got
      mounted and reading returned images. It leaves the store mounted
      exactly when mounting succeeded, and the gadget in CD-ROM mode exactly
      when `modprobe` ran and exited 0; otherwise disabled, whatever mode it
      commits. */
  lemma {:induction false} CdromTrace(s: Daemon, env: Env)
    ensures var t := SwitchCdrom(s, env); var p := ImagesToMount(env.files, env.descriptor);
      var loads := p.Returned? && MountSucceeds(s, env) && p.args.Some?;
      && t.trace ==
           (if s.emuMode != Disabled then [Unload] else [])
           + (if s.storeMounted || env.storeIsMount then []
              else (if env.mountDirExists then [] else [MakeDirs(StoreMnt)]) + [Run(MountArgv(false))])
           + (if loads then [Load(p.args.value)] else [])
      && t.state.storeMounted == MountSucceeds(s, env)
      && t.state.emuMode == (if loads && env.modprobeExit == 0 then CdRom else Disabled)
  {
    var s1 := s.(modeLed := ModeLed(s.modeLed, "cdrom"), actLed := ActLed(s.actLed, "wait"));
    var disable := DisableEmu(s1, env.rmmodExit);
    var mount := MountStore(disable.state, false, env.storeIsMount, env.mountDirExists, env.mountExit);
    var p := ImagesToMount(env.files, env.descriptor);
    if p.Returned? && mount.ok && p.args.Some? {
      var enable := EnableCdrom(mount.state, p.args.value, env.modprobeExit);
      assert enable.trace == [Load(p.args.value)];
    }
  }

  /** The commands `switch_store` runs, in order: `rmmod` if emulation was
      on; `sync` and `umount` if the store was known and seen mounted; then,
      only if unmounting succeeded, `modprobe` exporting the partition. The
      partition is never exported before it is unmounted. The store stays
      mounted exactly when unmounting failed, and the gadget ends in store
      mode exactly when `modprobe` ran and exited 0; otherwise disabled. */
  lemma {:induction false} StoreTrace(s: Daemon, env: Env)
    ensures var t := SwitchStore(s, env);
      && t.trace ==
           (if s.emuMode != Disabled then [Unload] else [])
           + (if s.storeMounted && env.storeIsMount then [Sync, Umount] else [])
           + (if UnmountSucceeds(s, env) then [Load(StoreArgs())] else [])
      && t.state.storeMounted == !UnmountSucceeds(s, env)
      && t.state.emuMode == (if UnmountSucceeds(s, env) && env.modprobeExit == 0 then Store else Disabled)
  {
    var s0 := s.(modeLed := ModeLed(ModeLed(s.modeLed, "store"), "wait"));
    var disable := DisableEmu(s0, env.rmmodExit);
    var unmount := UnmountStore(disable.state, env.storeIsMount, env.umountExit);
    if unmount.ok {
      var enable := EnableStore(unmount.state, env.modprobeExit);
      assert enable.trace == [Load(StoreArgs())];
    }
  }

  /** A switch that reports `error` leaves the gadget unloaded although it
      commits the new mode: the committed mode and the gadget's mode differ,
      and the next `disable_emu` runs no `rmmod`. */
  lemma FailureLeavesGadgetUnloaded(s: Daemon, env: Env)
    ensures var t := SwitchCdrom(s, env);
      t.raised.None? && t.state.actLed == ActError ==>
        t.state.currentMode == CdRom && t.state.emuMode == Disabled
    ensures var t := SwitchStore(s, env);
      t.state.actLed == ActError ==> t.state.currentMode == Store && t.state.emuMode == Disabled
  {
    CdromGating(s, env);
    CdromTrace(s, env);
    StoreGating(s, env);
    StoreTrace(s, env);
  }

  /** Every switch that did not raise commits its target mode, even when a
      step failed; `switch_mode` toggles between CD-ROM and store. */
  lemma ToggleRule(s: Daemon, env: Env)
    ensures var t := SwitchMode(s, env);
      t.raised.None? ==> t.state.currentMode == (if s.currentMode == CdRom then Store else CdRom)
  {
  }

  /** Switching to CD-ROM mode while already in it, with the store mounted,
      unloads and reloads the module: the switch is not idempotent. */
  lemma CdromReloads(s: Daemon, env: Env)
    requires s.emuMode == CdRom && s.storeMounted
    ensures var t := SwitchCdrom(s, env); var p := ImagesToMount(env.files, env.descriptor);
      p.Returned? && p.args.Some? ==> t.trace == [Unload, Load(p.args.value)]
  {
  }

  /** A descriptor that raises after a switch away from the store leaves the
      mode LED showing CD-ROM while the committed mode is still the store. */
  lemma LedDivergesOnRaise(s: Daemon, env: Env)
    requires s.currentMode == Store
    requires ImagesToMount(env.files, env.descriptor).Raised?
    ensures var t := SwitchMode(s, env);
      && t.raised.Some?
      && t.state.modeLed == ModeCdrom
      && t.state.currentMode == Store
  {
  }

  /** `start_shutdown` runs, in order: `rmmod` if emulation was on, `sync`
      and `umount` if the store was known and seen mounted, then `shutdown
      now`. */
  lemma ShutdownOrder(s: Daemon, env: Env)
    ensures StartShutdown(s, env).trace ==
      (if s.emuMode != Disabled then [Run(["rmmod", "g_mass_storage"])] else [])
      + (if s.storeMounted && env.storeIsMount then [Run(["sync"]), Run(["umount", "/dev/mmcblk0p3"])] else [])
      + [Run(["shutdown", "now"])]
  {
  }

  /** The invariant: whenever the activity LED shows `idle`, the gadget and
      the store are in the state the committed mode needs (CD-ROM: loaded
      for images, store mounted; store: loaded on the partition, store
      unmounted). */
  ghost predicate Consistent(s: Daemon) {
    s.actLed == ActIdle ==>
      && (s.currentMode == CdRom ==> s.emuMode == CdRom && s.storeMounted)
      && (s.currentMode == Store ==> s.emuMode == Store && !s.storeMounted)
  }

  /** Each switch and the shutdown establish the invariant, from any state. */
  lemma SwitchesEstablishConsistent(s: Daemon, env: Env)
    ensures Consistent(SwitchCdrom(s, env).state)
    ensures Consistent(SwitchStore(s, env).state)
    ensures Consistent(SwitchMode(s, env).state)
    ensures Consistent(StartShutdown(s, env).state)
  {
  }

  /** A request to the daemon: the button's short press or the console's
      bare `switch` (a toggle), the console's `switch cdrom` / `switch
      store`, shutdown (a long press or the console's `shutdown`), and the
      console's `disable`, which only runs `disable_emu`. */
  datatype Request = Toggle | ToCdrom | ToStore | PowerOff | Disable

  function Handle(s: Daemon, req: Request, env: Env): Transition {
    match req
    case Toggle => SwitchMode(s, env)
    case ToCdrom => SwitchCdrom(s, env)
    case ToStore => SwitchStore(s, env)
    case PowerOff => StartShutdown(s, env)
    case Disable =>
      var d := DisableEmu(s, env.rmmodExit);
      Transition(d.state, d.trace, None)
  }

  /** Whenever the gadget is loaded, it is loaded for the committed mode and
      the store is where that mode needs it. Unlike `Consistent` this does
      not look at the LED, and it holds after every request, `disable`
      included; the start-up state, which claims CD-ROM emulation before
      anything is mounted, does not satisfy it. */
  ghost predicate LoadedMatches(s: Daemon) {
    s.emuMode != Disabled ==>
      && s.emuMode == s.currentMode
      && (s.emuMode == CdRom ==> s.storeMounted)
      && (s.emuMode == Store ==> !s.storeMounted)
  }

  /** Serving one request: a switch or shutdown establishes `Consistent`;
      `disable` unloads the gadget and leaves everything else, the activity
      LED included, as it was, so the result is consistent exactly when the
      LED was not `idle`. Every request keeps a committed mode and leaves the
      gadget matching it. */
  lemma HandleKeepsConsistent(s: Daemon, req: Request, env: Env)
    requires s.currentMode != Disabled
    ensures req != Disable ==> Consistent(Handle(s, req, env).state)
    ensures req == Disable ==>
      && Handle(s, req, env).state == s.(emuMode := Disabled)
      && (Consistent(Handle(s, req, env).state) <==> s.actLed != ActIdle)
    ensures LoadedMatches(Handle(s, req, env).state)
    ensures Handle(s, req, env).state.currentMode != Disabled
  {
    SwitchesEstablishConsistent(s, env);
    CdromTrace(s, env);
    StoreTrace(s, env);
  }

  /** The console's `disable` after a switch to CD-ROM that reported `idle`
      leaves `idle` showing with the gadget unloaded: `Consistent` is not an
      invariant of the console. */
  lemma DisableBreaksConsistent(s: Daemon, env: Env)
    requires SwitchCdrom(s, env).state.actLed == ActIdle
    ensures var t := SwitchCdrom(s, env);
      Consistent(t.state) && !Consistent(Handle(t.state, Disable, env).state)
  {
    var t := SwitchCdrom(s, env);
    SwitchesEstablishConsistent(s, env);
    assert t.state.currentMode == CdRom;
    HandleKeepsConsistent(t.state, Disable, env);
  }

  /** Serves requests in order, one environment each. A request that raises
      leaves the state where the switch stopped and the next request is
      served from there: a button callback that raises ends only its own
      call. A console request that raises ends the daemon, so the states it
      reaches are those of a prefix of the requests. */
  function Serve(s: Daemon, reqs: seq<Request>, envs: seq<Env>): (final: Daemon)
    requires |envs| == |reqs|
    decreases |reqs|
  {
    if |reqs| == 0 then s
    else Serve(Handle(s, reqs[0], envs[0]).state, reqs[1..], envs[1..])
  }

  /** The states reached by serving requests. The committed mode is never
      "disabled", and after at least one request a loaded gadget matches it.
      The LED invariant `Consistent` holds after any request but the
      console's `disable`, since each switch and the shutdown establish it
      from any state, raising or not; so it holds throughout a run without
      `disable` from a consistent start. */
  lemma {:induction false} ServeKeepsConsistent(s: Daemon, reqs: seq<Request>, envs: seq<Env>)
    requires |envs| == |reqs|
    requires s.currentMode != Disabled
    ensures Serve(s, reqs, envs).currentMode != Disabled
    ensures |reqs| > 0 ==> LoadedMatches(Serve(s, reqs, envs))
    ensures |reqs| > 0 && reqs[|reqs| - 1] != Disable ==> Consistent(Serve(s, reqs, envs))
    ensures Consistent(s) && (forall k :: 0 <= k < |reqs| ==> reqs[k] != Disable) ==>
      Consistent(Serve(s, reqs, envs))
    decreases |reqs|
  {
    if |reqs| > 0 {
      var t := Handle(s, reqs[0], envs[0]);
      HandleKeepsConsistent(s, reqs[0], envs[0]);
      ServeKeepsConsistent(t.state, reqs[1..], envs[1..]);
      assert Serve(s, reqs, envs) == Serve(t.state, reqs[1..], envs[1..]);
      if |reqs| > 1 {
        assert reqs[1..][|reqs[1..]| - 1] == reqs[|reqs| - 1];
      }
      if forall k :: 0 <= k < |reqs| ==> reqs[k] != Disable {
        assert reqs[0] != Disable;
        assert forall k :: 0 <= k < |reqs[1..]| ==> reqs[1..][k] == reqs[k + 1];
      }
    }
  }

  lemma InitialConsistent()
    ensures Consistent(Initial) && Initial.currentMode != Disabled
  {
  }
}

=== FILE: text.dfy ===
/** The few Python `str` operations the daemon relies on, over `seq<char>`:
    `strip`, `index`, `split` with a one-character separator and `join`. */
module Text {
  import opened Maybe

  /** `s.lstrip(chars)`: drops the leading characters that belong to `chars`. */
  function StripLeft(s: string, chars: set<char>): (r: string)
    ensures |r| <= |s| && r == s[|s| - |r|..]
    ensures forall k :: 0 <= k < |s| - |r| ==> s[k] in chars
    ensures |r| > 0 ==> r[0] !in chars
    decreases |s|
  {
    if |s| > 0 && s[0] in chars then StripLeft(s[1..], chars) else s
  }

  /** `s.rstrip(chars)`: drops the trailing characters that belong to `chars`. */
  function StripRight(s: string, chars: set<char>): (r: string)
    ensures |r| <= |s| && r == s[..|r|]
    ensures forall k :: |r| <= k < |s| ==> s[k] in chars
    ensures |r| > 0 ==> r[|r| - 1] !in chars
    decreases |s|
  {
    if |s| > 0 && s[|s| - 1] in chars then StripRight(s[..|s| - 1], chars) else s
  }

  /** `s.strip(chars)`: the longest middle part of `s` that neither starts nor
      ends with a character of `chars`; everything removed belongs to `chars`. */
  function Strip(s: string, chars: set<char>): (r: string)
    ensures |r| <= |s|
    ensures |r| > 0 ==> r[0] !in chars && r[|r| - 1] !in chars
    ensures |r| == 0 <==> forall k :: 0 <= k < |s| ==> s[k] in chars
    ensures forall c :: c in r ==> c in s
    ensures exists a :: Trimmed(s, chars, r, a)
  {
    StripBothEnds(s, chars);
    StripRight(StripLeft(s, chars), chars)
  }

  /** `r` is the part of `s` that starts at `a`, and every character of `s`
      before or after it belongs to `chars`. */
  ghost predicate Trimmed(s: string, chars: set<char>, r: string, a: int) {
    && 0 <= a && a + |r| <= |s|
    && r == s[a..a + |r|]
    && (forall k :: 0 <= k < a ==> s[k] in chars)
    && (forall k :: a + |r| <= k < |s| ==> s[k] in chars)
  }

  /** Stripping both ends keeps a contiguous middle part of `s`, and removes
      everything exactly when every character belongs to `chars`. */
  lemma StripBothEnds(s: string, chars: set<char>)
    ensures var r := StripRight(StripLeft(s, chars), chars);
      && (|r| == 0 <==> forall k :: 0 <= k < |s| ==> s[k] in chars)
      && (forall c :: c in r ==> c in s)
      && Trimmed(s, chars, r, |s| - |StripLeft(s, chars)|)
  {
    StripTrimmed(s, chars);
    var l := StripLeft(s, chars);
    TrimmedFacts(s, chars, StripRight(l, chars), |s| - |l|);
  }

  /** A trimmed part that does not start with a character of `chars` is
      empty exactly when all of `s` is in `chars`, and holds only characters
      of `s`. */
  lemma TrimmedFacts(s: string, chars: set<char>, r: string, a: int)
    requires Trimmed(s, chars, r, a)
    requires |r| > 0 ==> r[0] !in chars
    ensures |r| == 0 <==> forall k :: 0 <= k < |s| ==> s[k] in chars
    ensures forall c :: c in r ==> c in s
  {
    if |r| > 0 {
      assert s[a] == r[0];
    }
    forall c | c in r
      ensures c in s
    {
      var k :| 0 <= k < |r| && r[k] == c;
      assert s[a + k] == c;
    }
  }

  /** Stripping the left end, then the right end, trims `s` around the
      position where the left strip stopped. */
  lemma StripTrimmed(s: string, chars: set<char>)
    ensures Trimmed(s, chars, StripRight(StripLeft(s, chars), chars), |s| - |StripLeft(s, chars)|)
  {
    var l := StripLeft(s, chars);
    var r := StripRight(l, chars);
    assert |l| <= |s| && l == s[|s| - |l|..];
    assert forall k :: 0 <= k < |s| - |l| ==> s[k] in chars;
    assert |r| <= |l| && r == l[..|r|];
    assert forall k :: |r| <= k < |l| ==> l[k] in chars;
    TrimmedOf(s, chars, l, r);
  }

  /** A suffix of `s` after dropped characters, cut back to a prefix before
      dropped characters, is a trimmed part of `s`. */
  lemma TrimmedOf(s: string, chars: set<char>, l: string, r: string)
    requires |l| <= |s| && l == s[|s| - |l|..]
    requires forall k :: 0 <= k < |s| - |l| ==> s[k] in chars
    requires |r| <= |l| && r == l[..|r|]
    requires forall k :: |r| <= k < |l| ==> l[k] in chars
    ensures Trimmed(s, chars, r, |s| - |l|)
  {
    var a := |s| - |l|;
    assert r == s[a..a + |r|];
    forall k | a + |r| <= k < |s|
      ensures s[k] in chars
    {
      assert s[k] == l[k - a];
    }
  }

  /** A line whose first character outside `chars` sits at `k` strips to a text starting there. */
  lemma {:induction false} StripLeftAt(s: string, chars: set<char>, k: nat)
    requires k < |s| && s[k] !in chars
    requires forall j :: 0 <= j < k ==> s[j] in chars
    ensures StripLeft(s, chars) == s[k..]
    decreases k
  {
    if k > 0 {
      StripLeftAt(s[1..], chars, k - 1);
      assert s[1..][k - 1..] == s[k..];
    }
  }

  /** `s.index(c, from)`, with `None` where Python raises `ValueError`. */
  function IndexFrom(s: string, c: char, from: nat): (r: Option<nat>)
    ensures r.Some? ==> from <= r.value < |s| && s[r.value] == c
    ensures r.Some? ==> forall k :: from <= k < r.value ==> s[k] != c
    ensures r.None? <==> forall k :: from <= k < |s| ==> s[k] != c
    decreases |s| - from
  {
    if from >= |s| then None
    else if s[from] == c then Some(from)
    else IndexFrom(s, c, from + 1)
  }

  /** `sep.join(parts)`. */
  function Join(parts: seq<string>, sep: char): (r: string)
    ensures |parts| == 1 ==> r == parts[0]
  {
    if |parts| == 0 then ""
    else if |parts| == 1 then parts[0]
    else parts[0] + [sep] + Join(parts[1..], sep)
  }

  /** `s.split(sep)`: the pieces between separators, empty pieces included. */
  function Split(s: string, sep: char): (parts: seq<string>)
    ensures |parts| >= 1
    ensures forall k :: 0 <= k < |parts| ==> sep !in parts[k]
    decreases |s|
  {
    match IndexFrom(s, sep, 0)
    case None => [s]
    case Some(k) => [s[..k]] + Split(s[k + 1..], sep)
  }

  /** Joining the pieces of a split with the same separator gives the text back. */
  lemma {:induction false} JoinSplit(s: string, sep: char)
    ensures Join(Split(s, sep), sep) == s
    decreases |s|
  {
    match IndexFrom(s, sep, 0)
    case None =>
    case Some(k) =>
      var rest := Split(s[k + 1..], sep);
      var parts := [s[..k]] + rest;
      assert Split(s, sep) == parts;
      assert parts[1..] == rest;
      JoinSplit(s[k + 1..], sep);
      assert s == s[..k] + [sep] + s[k + 1..];
  }

  /** The last piece of a split is the text after the last separator. */
  lemma {:induction false} SplitLast(s: string, sep: char) returns (last: string)
    ensures last == Split(s, sep)[|Split(s, sep)| - 1]
    ensures |last| <= |s|
    ensures last == s[|s| - |last|..]
    ensures |last| < |s| ==> s[|s| - |last| - 1] == sep
    decreases |s|
  {
    SplitAt(s, sep);
    match IndexFrom(s, sep, 0)
    case None =>
      last := s;
    case Some(k) =>
      last := SplitLast(s[k + 1..], sep);
      SuffixAfter(s, sep, k, last);
  }

  /** A suffix of the text after position `k`, preceded there by a separator,
      is a suffix of the whole text preceded by a separator. */
  lemma SuffixAfter(s: string, sep: char, k: nat, l: string)
    requires k < |s| && s[k] == sep
    requires |l| <= |s[k + 1..]| && l == s[k + 1..][|s[k + 1..]| - |l|..]
    requires |l| < |s[k + 1..]| ==> s[k + 1..][|s[k + 1..]| - |l| - 1] == sep
    ensures |l| < |s| && l == s[|s| - |l|..] && s[|s| - |l| - 1] == sep
  {
    var t := s[k + 1..];
    assert t[|t| - |l|..] == s[|s| - |l|..];
    if |l| < |t| {
      assert t[|t| - |l| - 1] == s[|s| - |l| - 1];
    }
  }

  /** Splitting what `Join` built gives the pieces back, as long as no piece
      contains the separator. */
  lemma {:induction false} SplitJoin(parts: seq<string>, sep: char)
    requires |parts| >= 1
    requires forall k :: 0 <= k < |parts| ==> sep !in parts[k]
    ensures Split(Join(parts, sep), sep) == parts
  {
    if |parts| > 1 {
      JoinHead(parts, sep);
      SplitAt(Join(parts, sep), sep);
      SplitJoin(parts[1..], sep);
      assert parts == [parts[0]] + parts[1..];
    }
  }

  /** A join of several pieces, the first without the separator, has its
      first separator right after the first piece, followed by the join of
      the rest. */
  lemma JoinHead(parts: seq<string>, sep: char)
    requires |parts| > 1 && sep !in parts[0]
    ensures var s := Join(parts, sep); var p := parts[0];
      && IndexFrom(s, sep, 0) == Some(|p|)
      && s[..|p|] == p
      && s[|p| + 1..] == Join(parts[1..], sep)
  {
    var p := parts[0];
    var tail := Join(parts[1..], sep);
    var s := p + [sep] + tail;
    assert Join(parts, sep) == s;
    assert s[|p|] == sep;
    assert forall k :: 0 <= k < |p| ==> s[k] == p[k] && s[k] != sep;
    assert s[..|p|] == p;
    assert s[|p| + 1..] == tail;
  }

  /** `w` occurs in `s` at `i` as a whole piece: bounded by separators or the ends of `s`. */
  ghost predicate Delimited(s: string, sep: char, w: string, i: int) {
    && 0 <= i && i + |w| <= |s|
    && s[i..i + |w|] == w
    && sep !in w
    && (i == 0 || s[i - 1] == sep)
    && (i + |w| == |s| || s[i + |w|] == sep)
  }

  /** `w in s.split(sep)` holds exactly when `w` occurs in `s` as a whole,
      separator-bounded piece. */
  lemma SplitMember(s: string, sep: char, w: string)
    ensures w in Split(s, sep) <==> exists i :: Delimited(s, sep, w, i)
  {
    if w in Split(s, sep) {
      var i := PieceIsDelimited(s, sep, w);
    }
    if i :| Delimited(s, sep, w, i) {
      DelimitedIsPiece(s, sep, w, i);
    }
  }

  lemma {:induction false} PieceIsDelimited(s: string, sep: char, w: string) returns (i: int)
    requires w in Split(s, sep)
    ensures Delimited(s, sep, w, i)
    decreases |s|, 1
  {
    i := 0;
    SplitAt(s, sep);
    match IndexFrom(s, sep, 0)
    case None =>
      WholeDelimited(s, sep);
    case Some(k) =>
      if w == s[..k] {
        FirstDelimited(s, sep, k);
      } else {
        i := PieceAfterSeparator(s, sep, w, k);
      }
  }

  /** A piece of the split after the first separator is delimited in the
      whole text. */
  lemma {:induction false} PieceAfterSeparator(s: string, sep: char, w: string, k: nat) returns (i: int)
    requires k < |s| && s[k] == sep
    requires w in Split(s[k + 1..], sep)
    ensures Delimited(s, sep, w, i)
    decreases |s|, 0
  {
    var j := PieceIsDelimited(s[k + 1..], sep, w);
    DelimitedShift(s, sep, w, k, j);
    i := k + 1 + j;
  }

  /** One step of `split`: no separator gives the whole text; otherwise the
      text before the first separator, then the split of the rest. */
  lemma SplitAt(s: string, sep: char)
    ensures IndexFrom(s, sep, 0).None? ==> Split(s, sep) == [s]
    ensures IndexFrom(s, sep, 0).Some? ==>
      var k := IndexFrom(s, sep, 0).value;
      Split(s, sep) == [s[..k]] + Split(s[k + 1..], sep)
  {
  }

  /** A text without separators is delimited as a whole. */
  lemma WholeDelimited(s: string, sep: char)
    requires sep !in s
    ensures Delimited(s, sep, s, 0)
  {
    assert s[0..|s|] == s;
  }

  /** The text before the first separator is delimited at 0. */
  lemma FirstDelimited(s: string, sep: char, k: nat)
    requires k < |s| && s[k] == sep
    requires forall j :: 0 <= j < k ==> s[j] != sep
    ensures Delimited(s, sep, s[..k], 0)
  {
    assert s[0..k] == s[..k];
  }

  /** A piece delimited in the text after a separator at `k` is delimited in
      the whole text, `k + 1` positions further. */
  lemma DelimitedShift(s: string, sep: char, w: string, k: nat, j: int)
    requires k < |s| && s[k] == sep
    requires Delimited(s[k + 1..], sep, w, j)
    ensures Delimited(s, sep, w, k + 1 + j)
  {
    var t := s[k + 1..];
    assert s[k + 1 + j..k + 1 + j + |w|] == t[j..j + |w|];
    if j > 0 {
      assert s[k + j] == t[j - 1];
    }
    if j + |w| < |t| {
      assert s[k + 1 + j + |w|] == t[j + |w|];
    }
  }

  lemma {:induction false} DelimitedIsPiece(s: string, sep: char, w: string, i: int)
    requires Delimited(s, sep, w, i)
    ensures w in Split(s, sep)
    decreases |s|
  {
    var idx := IndexFrom(s, sep, 0);
    if idx.None? {
      assert Split(s, sep) == [s];
      assert i == 0 && i + |w| == |s|;
      assert s[0..|s|] == s;
    } else {
      var k := idx.value;
      var t := s[k + 1..];
      var rest := Split(t, sep);
      assert Split(s, sep) == [s[..k]] + rest;
      if i == 0 {
        assert w == s[..k];
      } else {
        assert s[i - 1] == sep;
        var j := i - k - 1;
        assert t[j..j + |w|] == s[i..i + |w|];
        DelimitedIsPiece(t, sep, w, j);
      }
    }
  }
}
